=== FILE: README.md ===
# ProfitBoost discovery and roadmap core, in Dafny

ProfitBoost walks a CEO through three steps:

- an AI-led discovery chat that builds an understanding of the business, scored up to 100;
- a tailored interview;
- a generated roadmap of strategic steps, from which the app derives a twelve-week plan.

Everything around those steps is presentation. This project models the deterministic logic behind them:

- **`Types`** (`types.dfy`): the records of `types.ts`.
  - `Role`, `Language` and the roadmap `status` are datatypes with their literal codes.
  - Optional properties are `Option`s.
  - The `number` fields used as ids, stages, scores and weeks are `int`, assuming the service returns whole numbers for them (see "Left out").
- **`Text`** (`text.dfy`): the JavaScript string operations the core relies on.
  - `includes`, `trim` (over the ECMAScript white-space and line-terminator characters) and `join`;
  - `x || fallback` on a possibly missing string;
  - the decimal rendering of a whole number in a template literal.
- **`Retry`** (`retry.dfy`): the retry-with-backoff recursion of `callAiWithRetry`, with the error classifier as a parameter.
  - The task is `task: nat -> Attempt<T>`, the outcome of its k-th invocation.
  - The result records the final outcome, the list of waits in milliseconds and the number of invocations.
- **`Gemini`** (`gemini.dfy`): the service layer.
  - The error classifier (by message substring) and the wrapper with its defaults (3 retries, 1000 ms).
  - The renderings of the chat transcript and of the interview answers into prompt text.
  - The `status: 'pending'` injection of `generateRoadmap`.
- **`Discovery`** (`discovery.dfy`): the interview component as a state machine.
  - Phases are `understanding | tailoring | interview | finalizing`.
  - Each handler is a pure transition whose AI outcome is a parameter.
  - `Dispatch` applies a handler only when the control raising it is rendered.
  - A quick-reply click schedules a delayed advance; the pending timer is part of the state and fires as an event of its own.
  - `Dispatch` comes in two versions: the component as written, and with the delayed advance corrected.
  - An invariant holds in every reachable state of both. As written, a run completes the interview at most once more than the number of quick replies it picks; with the correction, at most once.
- **`WeeklyPlans`** (`weekly_plans.dfy`): the twelve-week plan derivation of `App.tsx`.
- **`App`** (`app.dfy`): the session orchestrator.
  - Transitions: login, language switch, discovery completion, the settling of a roadmap generation, commitment and logout.
  - A completion and the generation it starts are separate events, so overlapping completions and generations interleave.
  - The screen gating.
  - An invariant tying the weekly plans to the roadmap held.

Every AI call is represented by its final outcome. That is the success value, or the message of the error that reached the caller after the retries. The prompt text beyond the two renderings, the SDK request and `JSON.parse` are not modelled.

### Behaviour of the code worth knowing

- `startTailoring` does not reset the interview cursor.
  - After going back from question 5 and tailoring a batch of 3, the cursor points past the batch and the interview screen cannot render.
  - `Discovery.RetailoringKeepsStaleCursor` shows this.
- The back buttons only change the phase. Questions, answers and cursor are kept.
- Logout clears only the user. Answers, roadmap, plans and the current view stay in memory, and a generation already running keeps running. A later login still restarts at the interview (`App.ReloginRestartsDiscovery`).
  - A generation that settles after a new login marks the new user's discovery complete. The new user skips the interview and reaches the commitment screen with the previous user's roadmap (`App.StaleSettlementSkipsNewUsersInterview`).
- A failed roadmap generation only raises an alert.
  - The interview component stays mounted, in its `finalizing` phase with no error, where no control is rendered.
  - Only a reload gets out (`App.FailedRoadmapStrandsInterview`).
- A quick reply followed by the "next" control before its timer fires completes the interview twice (see "Findings"). If the clicked question was not the last one, the cursor moves twice and a question is skipped.
  - If the clicked question was the second to last, the cursor moves past the last question. The interview screen then reads the text of a question that does not exist and cannot render, and the interview never completes (`Discovery.QuickReplyThenNextOverrunsInterview`).
  - In the double completion, the orchestrator accepts the second completion whatever screen it is showing, since `handleDiscoveryComplete` checks only for a user (`App.LateCompletionOverwrites`). It stores that completion's answers, where the last question's answer is `''`, and starts a second generation.
  - The roadmap and plans held are those of whichever generation settles last, even after the first one has moved the user to the commitment screen (`App.LastSettlementWins`).
- Retryability is decided by substrings anywhere in the message. Any error whose text contains `500`, such as a parse error quoting that number, is retried.
- Errors without a message behave like an empty message: not retryable, not a quota error.

## Model

| member | source | states |
|---|---|---|
| Types.ParseRole | types.ts:2 | exactly the three role literals are accepted, and each reads back to its own code |
| Types.ParseLanguage | types.ts:3 | exactly `'vi'` and `'en'` are accepted, and each reads back to its own code |
| Types.ParseStatus | types.ts:45 | exactly the three status literals are accepted, and each reads back to its own code |
| Types.LiteralRoundTrips | types.ts:2-3 | rendering a role, language or status and reading it back returns the same value |
| Text.ContainsIffOccurs | services/gemini.ts:10-11 | `includes` holds exactly when the substring occurs at some index |
| Text.TrimEmptyIffBlank | views/Discovery.tsx:37 | `trim()` is empty exactly when every character is white space, so `!input.trim()` rejects exactly the blank inputs |
| Text.JoinSnoc | services/gemini.ts:37 | joining one more part appends the separator and that part at the end |
| Text.OrElse | views/Discovery.tsx:50-53 | the `or`-fallback yields either the fallback or a present non-empty string, the string whenever it is present and non-empty, and never an empty result when the fallback is non-empty |
| Text.NatToStringRoundTrip | App.tsx:51-53 | the decimal rendering of a week or focus number reads back to that number |
| Text.NatToStringInjective | App.tsx:53 | different numbers render as different digit strings |
| Retry.BackoffDoubles | services/gemini.ts:15-16 | a schedule of n waits starts at the initial delay, and each wait is twice the one before |
| Retry.BackoffPrefix | services/gemini.ts:15-16 | a shorter run's waits are a prefix of a longer run's waits |
| Retry.RetryFrom | services/gemini.ts:6-19 | the task runs between 1 and retries+1 times. Every invocation but the last threw a retryable error. The waits are the backoff schedule, one fewer than the invocations. The last outcome is returned, and a retryable final error means the budget was spent |
| Retry.RetryCallsAgree | services/gemini.ts:6-19 | a task and the same task with its success values mapped fail at the same invocations with the same messages, so they are invoked equally often |
| Retry.RetryMapsSuccess | services/gemini.ts:118-167 | mapping a function over a task's successful value gives the same waits, invocations and errors, and maps the value |
| Gemini.RetryableIffMarker | services/gemini.ts:10-13 | an error is retried exactly when `429`, `RESOURCE_EXHAUSTED`, `500` or `503` occurs in its message |
| Gemini.StatusCodeExamples | services/gemini.ts:10-13 | a `429` and a `503` are retried, and a `502` is not |
| Gemini.FirstSuccessReturnedAtOnce | services/gemini.ts:7-8 | a first attempt that succeeds is returned after one invocation and no waits |
| Gemini.NonRetryableRethrown | services/gemini.ts:9-18 | a non-retryable first error is rethrown unchanged after one invocation and no waits |
| Gemini.DefaultBudget | services/gemini.ts:6-16 | with the defaults the task runs at most 4 times, and the waits are a prefix of 1000, 2000, 4000 ms |
| Gemini.ExhaustionPropagatesLastError | services/gemini.ts:13-18 | four retryable failures in a row propagate the fourth error after waits of 1000, 2000 and 4000 ms |
| Gemini.SuccessAfterRetryableFailures | services/gemini.ts:13-16 | success at attempt k ≤ 4 after k-1 retryable failures returns that value after exactly k-1 waits |
| Gemini.ParseTranscriptLine | services/gemini.ts:37 | a line read back as a turn re-renders to the same line |
| Gemini.TranscriptLineRoundTrip | services/gemini.ts:37 | a turn rendered as `CEO: c` or `AI Strategist: c` reads back to the same speaker and content |
| Gemini.FormatTranscriptAppend | services/gemini.ts:37 | the transcript prompt grows turn by turn, in order, one line per turn joined by newlines |
| Gemini.FormatAnswersAppend | services/gemini.ts:127 | each answer renders as `Q: text` then `A: answer`, and the blocks are appended in order, separated by a blank line |
| Gemini.WithPendingStatus | services/gemini.ts:167 | the same steps in the same order, with every generated field kept and each status `pending` |
| Gemini.GenerateRoadmap | services/gemini.ts:117-168 | same waits, invocations and final error as the bare call, and on success its steps marked pending |
| WeeklyPlans.Slice | App.tsx:52 | `slice` never fails: its k-th element is the element at start+k, its length is at most end−start, it is the plain subsequence when both bounds are in range, and empty when end ≤ start or start is past the end |
| WeeklyPlans.FocusNumberRangeAndOrder | App.tsx:51 | the focus number lies in 1..5 and never decreases over the twelve weeks |
| WeeklyPlans.FocusNumbers | App.tsx:51 | the twelve focus numbers are 1,1,1,2,2,3,3,3,4,4,5,5 |
| WeeklyPlans.DerivePlans | App.tsx:49-55 | twelve plans. Plan i has week i+1, progress 0, the focus label numbered by `FocusNumber(i)` and its two KPI labels. Its steps are the ids at roadmap positions from min(2i,n) to min(2i+2,n), at most two, and empty exactly when 2i ≥ n |
| WeeklyPlans.StepsAreRoadmapIds | App.tsx:52 | each week lists exactly the ids at its positions, never outside the roadmap |
| WeeklyPlans.WeeksDisjoint | App.tsx:52 | weeks take their positions in order and no two weeks share one |
| WeeklyPlans.FlattenPrefix | App.tsx:52 | the first k weeks together list the first min(2k, n) roadmap ids, in order |
| WeeklyPlans.AllWeeksCoverPrefix | App.tsx:52 | all twelve weeks together list the first min(24, n) ids, which is exactly the first 24 for n ≥ 24 |
| WeeklyPlans.ThirtyStepRoadmap | App.tsx:52 | with ids 1..30, week 1 lists [1, 2] and week 12 lists [23, 24] |
| WeeklyPlans.KpisDistinct | App.tsx:53 | two different weeks never share a KPI label |
| WeeklyPlans.LabelsDependOnWeekOnly | App.tsx:49-55 | focus and KPI labels depend on the week index alone, never on the roadmap |
| Discovery.Init | views/Discovery.tsx:14-34 | the initial state is in `understanding` in the given language, with score 0, cursor 0, empty input and summary, no error, no questions, no answers and no pending timer. Its transcript is exactly the opening message as one AI turn, and it satisfies the invariant |
| Discovery.Submit | views/Discovery.tsx:39-43 | the raw input becomes a user turn, the input is cleared and loading is set, so any further send is ignored whatever is typed meanwhile |
| Discovery.SendUnderstanding | views/Discovery.tsx:36-62 | a blank input or a pending call changes nothing. Success appends the user turn and a non-empty reply (summary, or the follow-up question, or the fallbacks), and replaces the score. Failure appends only the user turn and shows the quota banner exactly for a quota error, otherwise `API Error` |
| Discovery.RetryAfterFailureSendsNothing | views/Discovery.tsx:37-43 | after a failed send the input is empty, so the banner's retry control changes nothing |
| Discovery.StartTailoring | views/Discovery.tsx:64-76 | success stores the questions and enters `interview` without resetting the cursor. Failure returns to `understanding` with the tailoring error. The transcript is untouched either way |
| Discovery.RecordAnswer | views/Discovery.tsx:78-80 | only the current question's answer is set, and every other answer and field is unchanged |
| Discovery.CompletionMatchesBatch | views/Discovery.tsx:89-93 | one entry per question, in order, with the question's id and text and its answer or `''`. Every id comes from the batch, and ids stay distinct when the batch's are |
| Discovery.Next | views/Discovery.tsx:84-96 | before the last question only the cursor moves. At the last question the phase becomes `finalizing` and the full answer list is emitted |
| Discovery.ReplyClick | views/Discovery.tsx:78-82 | the reply is recorded as the current question's answer and a timer is queued holding the cursor, questions and answers from before the click; nothing else changes |
| Discovery.FireTimer | views/Discovery.tsx:81-95 | as written, the oldest timer emits exactly when its clicked question was the last, with the answers from before the click and in any phase, and otherwise moves the current cursor on. Corrected, it acts only while the clicked question is still shown: it moves the cursor on, or on the last question emits with the current answers. Either way only the phase and cursor change besides the timer queue, and a completion keeps the cursor |
| Discovery.ReplyOnLastQuestionIsDropped | views/Discovery.tsx:78-95 | on the last question, a quick reply to an unanswered question is stored but emitted as `''` when its timer fires |
| Discovery.ReplyDroppedExample | views/Discovery.tsx:78-95 | a one-question interview answered by the reply "Yes" emits an empty answer |
| Discovery.CorrectedReplyReachesList | views/Discovery.tsx:78-95 | with the corrected advance, a quick reply on the last question is carried by the emitted list |
| Discovery.Back | views/Discovery.tsx:251 | only the phase changes, to `understanding`. Questions, answers and cursor are kept |
| Discovery.DispatchPreservesInv | views/Discovery.tsx:143-175 | every rendered control and every timer keeps the invariant and the language, and only appends to the transcript; with the corrected advance a finalizing state also never shows an error. The invariant: no call outstanding, `tailoring` never observed, no error in the interview, input hidden and empty at full score, phases past understanding and pending timers only at full score |
| Discovery.FinalizingIsFinal | views/Discovery.tsx:182-210 | in `finalizing` with no error no control is rendered: no event emits and only pending timers change (none, as written, when none is pending) |
| Discovery.CompletionOnlyFromInterview | views/Discovery.tsx:84-95 | only the next control and a timer emit, always moving to `finalizing`; the next control, and every emission once corrected, comes from `interview` with one entry per question |
| Discovery.TailoringNeedsFullScore | views/Discovery.tsx:155-156 | below a score of 100 the tailoring trigger does nothing |
| Discovery.CorrectedRunCompletesAtMostOnce | views/Discovery.tsx:78-95 | with the corrected advance, over any run of events the invariant holds and the transcript only grows. The interview completes at most once, and never from `finalizing` |
| Discovery.AsWrittenStepBound | views/Discovery.tsx:78-95 | as written, each emission spends one unit of potential (one for an unfinished interview plus one per pending timer), and only a quick reply adds one |
| Discovery.AsWrittenCompletionsBound | views/Discovery.tsx:78-95 | as written, a run keeps the invariant and completes at most its starting potential plus its number of quick replies times, so from mount a run without quick replies completes at most once |
| Discovery.QuickReplyThenNextCompletesTwice | views/Discovery.tsx:78-95 | a quick reply "Yes" on the only question followed by "next" emits the list twice as written (with "Yes", then with `''`), and once with the correction |
| Discovery.QuickReplyThenNextOverrunsInterview | views/Discovery.tsx:78-95 | as written, a quick reply on the first of two questions followed by "next" leaves the cursor at 2, past the batch, with no completion, and from there no event changes anything |
| Discovery.RetailoringKeepsStaleCursor | views/Discovery.tsx:64-70 | going back from the 5th question and tailoring 3 questions leaves the cursor at 4, where the interview cannot render |
| Discovery.FollowUpQuestionScenario | views/Discovery.tsx:36-54 | a not-yet-understood reply with score 40 keeps the phase, shows 40, and ends the transcript with the user turn and the follow-up question |
| App.Login | App.tsx:26-35 | the user is exactly id `'1'` with the given email, role and language and both flags cleared, so the interview is shown next. Nothing else changes |
| App.SwitchLang | App.tsx:37-39 | only the user's language changes, and the workspace stays on its view |
| App.DiscoveryComplete | App.tsx:41-46 | no user: no change. Otherwise the answers are stored at once and one more generation is outstanding, on whatever screen is shown, which does not change |
| App.RoadmapSettled | App.tsx:46-62 | one outstanding generation settles. Success sets the roadmap, its twelve derived plans and the current user's discovery flag together, keeping the answers and view. Failure changes nothing else |
| App.CommitmentSigned | App.tsx:66-69 | sets the commitment flag (when signed in) and the dashboard view; nothing else changes, including outstanding generations |
| App.Logout | App.tsx:81 | back to the sign-in screen; only the user is cleared, so answers, roadmap, plans, view and outstanding generations are kept |
| App.ReloginRestartsDiscovery | App.tsx:26-35 | signing in after a logout shows the interview again, although the old roadmap is still held |
| App.InitSatisfiesInv | App.tsx:19-24 | the initial session shows the sign-in screen and satisfies the invariant |
| App.DispatchPreservesInv | App.tsx:41-73 | every event keeps the plans derived from the roadmap (or both empty before any generation), a signed commitment implies completed discovery, and the view is a menu id |
| App.CommitmentViewUnreachable | App.tsx:92 | the menu never selects the `commitment` view, so signing is offered exactly on the commitment screen |
| App.WorkspaceShowsDerivedPlans | App.tsx:49-56 | the workspace always shows twelve plans derived from the roadmap it shows |
| App.GatesInOrder | App.tsx:71-73 | the workspace is reached only with both flags set, the commitment only after discovery, and signing always leads to the workspace |
| App.GeneratedRoadmapReachesCommitment | App.tsx:41-57 | a completion followed by its successful generation moves the user to the commitment screen. Every step is pending and the weeks cover the roadmap's first ids in order |
| App.LateCompletionOverwrites | App.tsx:41-57 | `handleDiscoveryComplete` checks only for a user, so a completion received in the workspace still replaces the stored answers and, once its generation succeeds, the roadmap and plans shown, on the same screen |
| App.StaleSettlementSkipsNewUsersInterview | App.tsx:46-57 | a generation outstanding at logout that succeeds after a new login puts the new user on the commitment screen with that roadmap and its plans |
| App.LastSettlementWins | App.tsx:41-57 | two overlapping completions leave the second one's answers and the roadmap of the generation that settles last, on the commitment screen |
| App.FailedRoadmapStrandsInterview | App.tsx:58-63 | a completion followed by a failed generation keeps the interview screen, whose `finalizing` phase, once no timer is pending, ignores every event |

## Left out

- The Google GenAI SDK request, the model name, the thinking budget, the response schemas and `JSON.parse`. Each AI call is represented by its final outcome (a value or an error message), or by the per-invocation outcome function for the retry wrapper.
- The prompt texts other than the transcript and answers renderings. `generateDiscoveryQuestions` and `getNextDiscoveryStep` appear only through their outcomes.
- `askStrategicThinker`, the AI Thinker view, and all other workspace views (Dashboard, Roadmap, Grow, Structure, Power of One, Reports). They are presentation or floating-point arithmetic outside this core.
- The `setTimeout` sleeps of the retry wrapper and of the quick-reply click. The waits are returned as numbers. The 300 ms of the click is not modelled: a pending timer can fire after any later event.
- The interview and the orchestrator are separate machines, not composed into one. `App` accepts a completion on any screen with a user. That covers a quick-reply timer firing after the interview is unmounted, but does not tie each completion to an interview state.
- App.DiscoveryComplete: the `!user` test reads the user of the handler's closure. The model reads the current user. The two differ only when the user logs out between a quick reply and its timer.
- React's asynchronous rendering inside the interview. A send is one transition (submit, then resolve), and so is `Discovery.StartTailoring`. The interleavings that could occur while either call is outstanding are not modelled. `Discovery.Submit` states the loading guard that blocks a second send.
  - One such interleaving: a pending quick-reply timer fires during tailoring, moves the phase to `finalizing` and emits a completion. The tailoring result then sets the phase back to `interview`.
  - `Discovery.Inv`'s "tailoring is never observed" relies on this being left out.
- The `loading` flag of `App.tsx`. It is set and cleared but never read.
- `console` logging and the `alert` on roadmap failure.
- Discovery.Init: the opening message is a function of the language alone, but the two opening texts are not proved to differ. They are long string literals whose contents the verifier does not unfold.
- The error banner texts are a three-valued `Notice` with `ErrorText` giving each text, rather than strings compared character by character.
- Retry.RetryFrom: `retries` and `delay` are naturals. A negative budget passed to `callAiWithRetry` behaves like 0, and a negative delay is not modelled. Numbers are unbounded, so a doubling delay never overflows.
- Types: ids, stages, understanding scores and weeks are `int`. They arrive as JSON numbers (services/gemini.ts:60, 98 and 147-148) and could be fractional: a score of 99.5 would show as "99.5%" and not unlock tailoring. The model assumes whole numbers.
- Navigation is limited to the eight menu ids of `components/Layout.tsx`, which is not otherwise part of this model.
- Sign-in form details beyond its non-empty email requirement (`views/Auth.tsx` is not part of this model).

## Findings

| source | as written | input that shows it | evidently intended | confidence | as-written member | corrected member |
|---|---|---|---|---|---|---|
| views/Discovery.tsx:78-95 | `handleReplyClick` records the reply, then `setTimeout(handleNext)` runs the `handleNext` of the click's render. That function builds the emitted list from the answers as they were before the click | a single-question interview whose only question is answered by clicking the quick reply "Yes": the list passed to `onComplete` has answer `''` | the emitted list carries the reply just clicked | not executed | Discovery.ReplyOnLastQuestionIsDropped | Discovery.CorrectedReplyReachesList |
| views/Discovery.tsx:78-95 | the delayed `handleNext` of a quick reply fires whatever happened in the 300 ms since the click, and always calls `onComplete` when the clicked question was the last | a one-question interview: click the quick reply "Yes", then the "next" control before the timer fires: `onComplete` is called twice, first with "Yes", then with `''` | the interview completes at most once | not executed | Discovery.QuickReplyThenNextCompletesTwice | Discovery.CorrectedRunCompletesAtMostOnce |

=== FILE: app.dfy ===
/**
 The session orchestrator (App.tsx): who is signed in, which screen the
 routing shows, and the session data (interview answers, roadmap, weekly
 plans) handed to the workspace views.

 As in `Discovery`, each handler is a pure transition. `handleDiscoveryComplete`
 awaits `generateRoadmap`, so it is two transitions: the completion stores the
 answers and starts a generation, and a later event settles one outstanding
 generation with its final outcome. Completions and settlements can
 interleave with each other and with every other event. The `loading` flag of
 the component is set and cleared but never read, so it is not part of the
 state.
 */
module App {
  import opened Types
  import opened Retry
  import Gemini
  import WeeklyPlans
  import Discovery

  datatype AppState = AppState(
    user: Option<User>,
    view: string,
    answers: seq<DiscoveryAnswer>,
    roadmap: seq<RoadmapStep>,
    plans: seq<WeeklyPlan>,
    pending: nat)

  /** What the component renders: the first gate that is not yet passed, else the workspace with the current view. */
  datatype Screen =
    | AuthScreen
    | DiscoveryScreen(lang: Language)
    | CommitmentScreen(lang: Language)
    | Workspace(view: string, lang: Language)

  const Dashboard: string := "dashboard"

  /** The view ids the workspace menu (components/Layout.tsx) can select. */
  const MenuViews: seq<string> := ["dashboard", "structure", "grow", "power", "roadmap", "knowledge", "affiliate", "reports"]

  function Init(): AppState
  {
    AppState(None, Dashboard, [], [], [], 0)
  }

  function Gate(s: AppState): Screen
  {
    if s.user.None? then AuthScreen
    else if !s.user.value.hasCompletedDiscovery then DiscoveryScreen(s.user.value.lang)
    else if !s.user.value.hasSignedCommitment then CommitmentScreen(s.user.value.lang)
    else Workspace(s.view, s.user.value.lang)
  }

  /** `handleLogin`: a fresh user with both flags cleared, so the next screen is always the interview. */
  function Login(s: AppState, email: string, role: Role, lang: Language): (r: AppState)
    ensures r.user.Some? && r.user.value.email == email && r.user.value.role == role && r.user.value.lang == lang
    ensures Gate(r) == DiscoveryScreen(lang)
    ensures r.user.value == User("1", email, role, lang, false, false, None, None)
    ensures !r.user.value.hasCompletedDiscovery && !r.user.value.hasSignedCommitment
    ensures r.user.value.businessField.None? && r.user.value.businessSummary.None?
    ensures r == s.(user := r.user)
  {
    s.(user := Some(User("1", email, role, lang, false, false, None, None)))
  }

  /** `handleSwitchLang`: only the language changes, so the routing stays where it was apart from the language. */
  function SwitchLang(s: AppState, lang: Language): (r: AppState)
    ensures s.user.None? ==> r == s
    ensures s.user.Some? ==> r.user.Some? && r.user.value.lang == lang && r.user.value.(lang := s.user.value.lang) == s.user.value
    ensures r == s.(user := r.user)
    ensures Gate(s).Workspace? ==> Gate(r) == Workspace(s.view, lang)
  {
    if s.user.Some? then s.(user := Some(s.user.value.(lang := lang))) else s
  }

  /**
   `handleDiscoveryComplete` up to its `await`. Without a user nothing happens.
   Otherwise the answers are stored at once, whatever screen is shown, and one
   more roadmap generation is outstanding; the screen does not change.
   */
  function DiscoveryComplete(s: AppState, answers: seq<DiscoveryAnswer>): (r: AppState)
    ensures s.user.None? ==> r == s
    ensures s.user.Some? ==> r.answers == answers && r.pending == s.pending + 1
    ensures Gate(r) == Gate(s)
    ensures r.user == s.user && r.view == s.view && r.roadmap == s.roadmap && r.plans == s.plans
  {
    if s.user.None? then s else s.(answers := answers, pending := s.pending + 1)
  }

  /**
   One outstanding generation settles with its final outcome. On success the
   roadmap and the twelve weekly plans derived from it replace the ones held,
   on any screen, and the current user (if any) is marked as having completed
   discovery. A failure only raises an alert. The stored answers are not
   touched either way.
   */
  function RoadmapSettled(s: AppState, outcome: Attempt<seq<RoadmapStep>>): (r: AppState)
    requires s.pending > 0
    ensures r.pending == s.pending - 1
    ensures r.answers == s.answers && r.view == s.view
    ensures r.user.None? <==> s.user.None?
    ensures outcome.Ok? ==>
      && r.roadmap == outcome.value
      && |r.plans| == WeeklyPlans.WeekCount
      && r.plans == WeeklyPlans.DerivePlans(outcome.value)
      && (s.user.Some? ==>
            && r.user.value.hasCompletedDiscovery
            && r.user.value.(hasCompletedDiscovery := s.user.value.hasCompletedDiscovery) == s.user.value)
    ensures outcome.Err? ==> r == s.(pending := s.pending - 1)
  {
    var settled := s.(pending := s.pending - 1);
    match outcome
    case Ok(steps) =>
      settled.(roadmap := steps,
               plans := WeeklyPlans.DerivePlans(steps),
               user := if s.user.Some? then Some(s.user.value.(hasCompletedDiscovery := true)) else None)
    case Err(_) => settled
  }

  /** `handleCommitmentSigned`: sets the flag (when signed in) and returns to the dashboard. */
  function CommitmentSigned(s: AppState): (r: AppState)
    ensures r.view == Dashboard
    ensures s.user.None? ==> r == s.(view := Dashboard)
    ensures s.user.Some? ==>
      && r.user.Some? && r.user.value.hasSignedCommitment
      && r.user.value.(hasSignedCommitment := s.user.value.hasSignedCommitment) == s.user.value
    ensures r.answers == s.answers && r.roadmap == s.roadmap && r.plans == s.plans
    ensures r == s.(user := r.user, view := Dashboard)
  {
    var signed := if s.user.Some? then Some(s.user.value.(hasSignedCommitment := true)) else None;
    s.(user := signed, view := Dashboard)
  }

  /**
   The logout control: only the user is cleared; answers, roadmap, plans, the
   view and any generation still outstanding stay.
   */
  function Logout(s: AppState): (r: AppState)
    ensures Gate(r) == AuthScreen
    ensures r.answers == s.answers && r.roadmap == s.roadmap && r.plans == s.plans && r.view == s.view
    ensures r == s.(user := None)
  {
    s.(user := None)
  }

  /** Signing in again after a logout restarts at the interview, even though the old roadmap and plans are still held. */
  lemma ReloginRestartsDiscovery(s: AppState, email: string, role: Role, lang: Language)
    ensures var r := Login(Logout(s), email, role, lang);
      && Gate(r) == DiscoveryScreen(lang)
      && r.roadmap == s.roadmap && r.plans == s.plans && r.answers == s.answers
  {
  }

  // ---------------------------------------------------------------------------
  // The orchestrator as an event machine

  datatype Event =
    | SignIn(email: string, role: Role, lang: Language)
    | InterviewDone(answers: seq<DiscoveryAnswer>)
    | Settled(roadmap: Attempt<seq<RoadmapStep>>)
    | Sign
    | Navigate(view: string)
    | ChangeLanguage(lang: Language)
    | SignOut

  /**
   Whether the screen shown in `s` can raise `e`. The sign-in form submits
   only with a non-empty email, and the menu only selects its own view ids.
   The workspace renders the commitment view when the view is "commitment",
   which no menu entry selects (see `CommitmentViewUnreachable`). A completion
   can arrive on any screen: the interview's delayed quick-reply advance can
   call `onComplete` after the interview has been replaced.
   */
  predicate Offered(s: AppState, e: Event)
  {
    match e
    case SignIn(email, _, _) => Gate(s) == AuthScreen && email != ""
    case InterviewDone(_) => s.user.Some?
    case Settled(_) => s.pending > 0
    case Sign => Gate(s).CommitmentScreen? || (Gate(s).Workspace? && s.view == "commitment")
    case Navigate(view) => Gate(s).Workspace? && view in MenuViews
    case ChangeLanguage(_) => Gate(s).Workspace?
    case SignOut => Gate(s).Workspace?
  }

  function Dispatch(s: AppState, e: Event): AppState
  {
    if !Offered(s, e) then s
    else
      match e
      case SignIn(email, role, lang) => Login(s, email, role, lang)
      case InterviewDone(answers) => DiscoveryComplete(s, answers)
      case Settled(outcome) => RoadmapSettled(s, outcome)
      case Sign => CommitmentSigned(s)
      case Navigate(view) => s.(view := view)
      case ChangeLanguage(lang) => SwitchLang(s, lang)
      case SignOut => Logout(s)
  }

  /** The state after a sequence of events. */
  function Run(s: AppState, events: seq<Event>): AppState
    decreases |events|
  {
    if |events| == 0 then s else Run(Dispatch(s, events[0]), events[1..])
  }

  /**
   Invariant of the orchestrator: the weekly plans are always the ones derived
   from the roadmap held (or both are still empty, before any roadmap was
   generated, and then discovery is not complete), and the commitment is only
   ever signed after discovery.
   */
  ghost predicate Inv(s: AppState)
  {
    && (s.plans == WeeklyPlans.DerivePlans(s.roadmap) ||
        (s.plans == [] && s.roadmap == [] && !(s.user.Some? && s.user.value.hasCompletedDiscovery)))
    && (s.user.Some? && s.user.value.hasSignedCommitment ==> s.user.value.hasCompletedDiscovery)
    && s.view in MenuViews
  }

  lemma InitSatisfiesInv()
    ensures Inv(Init()) && Gate(Init()) == AuthScreen
  {
  }

  /** Every event keeps the invariant. */
  lemma DispatchPreservesInv(s: AppState, e: Event)
    requires Inv(s)
    ensures Inv(Dispatch(s, e))
  {
  }

  /** The commitment view of the workspace is never selected, so the only signing control is the commitment screen's. */
  lemma CommitmentViewUnreachable(s: AppState)
    requires Inv(s)
    ensures s.view != "commitment"
    ensures Offered(s, Sign) <==> Gate(s).CommitmentScreen?
  {
  }

  /** The workspace always shows twelve weekly plans derived from the roadmap it shows. */
  lemma WorkspaceShowsDerivedPlans(s: AppState)
    requires Inv(s) && Gate(s).Workspace?
    ensures s.plans == WeeklyPlans.DerivePlans(s.roadmap)
    ensures |s.plans| == WeeklyPlans.WeekCount
  {
  }

  /** The routing gates are passed in order: no screen is reached without passing the ones before it. */
  lemma GatesInOrder(s: AppState)
    requires Inv(s)
    ensures Gate(s).Workspace? ==> s.user.Some? && s.user.value.hasCompletedDiscovery && s.user.value.hasSignedCommitment
    ensures Gate(s).CommitmentScreen? ==> s.user.Some? && s.user.value.hasCompletedDiscovery && !s.user.value.hasSignedCommitment
    ensures s.user.Some? && s.user.value.hasSignedCommitment ==> Gate(s).Workspace?
  {
  }

  /**
   A successful roadmap generation moves the user from the interview to the
   commitment screen with every step pending and the weeks covering the
   roadmap's first steps in order.
   */
  lemma GeneratedRoadmapReachesCommitment(
    s: AppState, answers: seq<DiscoveryAnswer>, task: nat -> Attempt<seq<Gemini.GeneratedStep>>)
    requires Inv(s) && Gate(s).DiscoveryScreen?
    requires Gemini.GenerateRoadmap(task).result.Ok?
    ensures var r := Dispatch(Dispatch(s, InterviewDone(answers)), Settled(Gemini.GenerateRoadmap(task).result));
      && Gate(r) == CommitmentScreen(s.user.value.lang)
      && r.answers == answers
      && (forall i :: 0 <= i < |r.roadmap| ==> r.roadmap[i].status == Pending)
      && WeeklyPlans.Flatten(r.plans) == WeeklyPlans.Ids(r.roadmap)[..WeeklyPlans.Min(24, |r.roadmap|)]
  {
    var r := Dispatch(Dispatch(s, InterviewDone(answers)), Settled(Gemini.GenerateRoadmap(task).result));
    WeeklyPlans.AllWeeksCoverPrefix(r.roadmap);
  }

  /**
   A failed roadmap generation leaves the interview mounted, already in its
   finalizing phase with no error, where no control is rendered: once no
   quick-reply timer is pending, every interview event is ignored and the only
   way on is a reload.
   */
  lemma FailedRoadmapStrandsInterview(
    s: AppState, answers: seq<DiscoveryAnswer>, message: string, d: Discovery.State)
    requires Inv(s) && Gate(s).DiscoveryScreen?
    requires Discovery.Inv(d) && d.phase == Discovery.Finalizing && d.error == None && d.timers == []
    ensures var r := Dispatch(Dispatch(s, InterviewDone(answers)), Settled(Err(message)));
      && Gate(r) == Gate(s)
      && r.answers == answers
      && r.roadmap == s.roadmap
    ensures forall e :: Discovery.Dispatch(Discovery.AsWritten, d, e) == Discovery.Step(d, None)
  {
    forall e
      ensures Discovery.Dispatch(Discovery.AsWritten, d, e) == Discovery.Step(d, None)
    {
      Discovery.FinalizingIsFinal(Discovery.AsWritten, d, e);
    }
  }

  /**
   `handleDiscoveryComplete` checks only for a user, not for the screen: a
   completion received in the workspace still replaces the stored answers and,
   once its generation succeeds, the roadmap and plans the workspace shows.
   */
  lemma LateCompletionOverwrites(s: AppState, answers: seq<DiscoveryAnswer>, steps: seq<RoadmapStep>)
    requires Inv(s) && Gate(s).Workspace?
    ensures var r := Dispatch(Dispatch(s, InterviewDone(answers)), Settled(Ok(steps)));
      && Gate(r) == Gate(s)
      && r.answers == answers
      && r.roadmap == steps
      && r.plans == WeeklyPlans.DerivePlans(steps)
  {
  }

  /**
   Two overlapping completions: the answers are the second completion's, and
   the roadmap is the one of whichever generation settles last.
   */
  lemma LastSettlementWins(
    s: AppState, first: seq<DiscoveryAnswer>, second: seq<DiscoveryAnswer>,
    early: seq<RoadmapStep>, late: seq<RoadmapStep>)
    requires Inv(s) && Gate(s).DiscoveryScreen?
    ensures var r := Run(s, [InterviewDone(first), InterviewDone(second), Settled(Ok(early)), Settled(Ok(late))]);
      && Gate(r) == CommitmentScreen(s.user.value.lang)
      && r.answers == second
      && r.roadmap == late
      && r.plans == WeeklyPlans.DerivePlans(late)
      && r.pending == s.pending
  {
    var events := [InterviewDone(first), InterviewDone(second), Settled(Ok(early)), Settled(Ok(late))];
    assert events[1..] == [InterviewDone(second), Settled(Ok(early)), Settled(Ok(late))];
    assert events[1..][1..] == [Settled(Ok(early)), Settled(Ok(late))];
    assert events[1..][1..][1..] == [Settled(Ok(late))];
    assert events[1..][1..][1..][1..] == [];
    var s1 := Dispatch(s, InterviewDone(first));
    var s2 := Dispatch(s1, InterviewDone(second));
    assert s2.answers == second && s2.pending == s.pending + 2 && Gate(s2) == Gate(s);
    var s3 := Dispatch(s2, Settled(Ok(early)));
    assert s3.pending == s.pending + 1 && s3.answers == second;
    var s4 := Dispatch(s3, Settled(Ok(late)));
    assert Run(s3, events[1..][1..][1..]) == s4;
    assert Run(s2, events[1..][1..]) == s4;
    assert Run(s1, events[1..]) == s4;
  }

  /**
   A generation still outstanding at logout settles for whoever is signed in
   by then: the settlement marks the current user's discovery complete, so a
   fresh user skips the interview and lands on the commitment screen with the
   previous user's roadmap.
   */
  lemma StaleSettlementSkipsNewUsersInterview(
    s: AppState, email: string, role: Role, lang: Language, steps: seq<RoadmapStep>)
    requires Inv(s) && Gate(s).Workspace? && s.pending > 0
    requires email != ""
    ensures var r := Run(s, [SignOut, SignIn(email, role, lang), Settled(Ok(steps))]);
      && Gate(r) == CommitmentScreen(lang)
      && r.user.value.email == email
      && r.roadmap == steps
      && r.plans == WeeklyPlans.DerivePlans(steps)
  {
    var events := [SignOut, SignIn(email, role, lang), Settled(Ok(steps))];
    assert events[1..] == [SignIn(email, role, lang), Settled(Ok(steps))];
    assert events[1..][1..] == [Settled(Ok(steps))];
    assert events[1..][1..][1..] == [];
    var s1 := Dispatch(s, SignOut);
    assert s1 == Logout(s);
    var s2 := Dispatch(s1, SignIn(email, role, lang));
    assert s2 == Login(s1, email, role, lang);
    var s3 := Dispatch(s2, Settled(Ok(steps)));
    assert s3 == RoadmapSettled(s2, Ok(steps));
    assert Run(s2, events[1..][1..]) == s3;
    assert Run(s1, events[1..]) == s3;
  }
}

=== FILE: discovery.dfy ===
/**
 The discovery interview (views/Discovery.tsx) as a state machine over an
 immutable `State` record. Each event handler of the component is a pure
 transition; the answer of an AI call is a parameter of the transition (the
 final `Attempt` of the retry wrapper), not a call. A send is modelled as one
 transition that submits and then resolves, so between two events no call is
 outstanding.

 A quick-reply click records the reply and schedules `handleNext` with
 `setTimeout`; the scheduled call is a pending timer in the state, fired by an
 event of its own, so other controls can be used before it runs.

 `Dispatch` applies a handler only when the control that triggers it is
 rendered in the current state (the UI gating of the component's JSX);
 `Inv` is an invariant of every state reachable from `Init`. `Dispatch` takes
 a `Version`: the component as written, or with the scheduled advance
 corrected (see `FireTimer`).
 */
module Discovery {
  import opened Types
  import opened Text
  import opened Retry
  import Gemini

  datatype Phase = Understanding | Tailoring | Interview | Finalizing

  datatype State = State(
    lang: Language,
    phase: Phase,
    transcript: seq<Turn>,
    input: string,
    score: int,
    loading: bool,
    summary: string,
    error: Option<Notice>,
    questions: seq<DynamicQuestion>,
    cursor: nat,
    answers: map<int, string>,
    timers: seq<Snapshot>)

  /** A transition's new state and, when the interview completes, the list handed to `onComplete`. */
  datatype Step = Step(state: State, completed: Option<seq<DiscoveryAnswer>>)

  /** Score at which the "start deep dive" control replaces the chat input. */
  const FullScore: int := 100

  function OpeningMessage(lang: Language): string
  {
    if lang == Vi then
      "Xin chào CEO. Để bắt đầu, vui lòng mô tả doanh nghiệp của bạn: Bạn bán sản phẩm/dịch vụ gì, cho ai, và giải quyết vấn đề then chốt nào?"
    else
      "Welcome CEO. To begin, please describe your business: What do you sell, to whom, and what core problem do you solve?"
  }

  /** The three error banners the component can show; `ErrorText` is what each one reads. */
  datatype Notice = QuotaBusy | ApiError | TailoringFailed

  function ErrorText(lang: Language, n: Notice): string
  {
    match n
    case QuotaBusy =>
      if lang == Vi then "Dịch vụ AI đang bận (Hết hạn mức). Thử lại sau giây lát."
      else "AI Service busy (Quota exhausted). Please retry shortly."
    case ApiError => "API Error"
    case TailoringFailed =>
      if lang == Vi then "Không thể thiết kế bộ câu hỏi do quá tải. Thử lại?"
      else "Failed to tailor questions due to load. Retry?"
  }

  /** The state after mounting: the chat is seeded with the opening question for the chosen language. */
  function Init(lang: Language): (s: State)
    ensures Inv(s)
    ensures s.phase == Understanding && s.score == 0 && s.cursor == 0 && s.answers == map[]
    ensures |s.transcript| == 1 && s.transcript[0].role == AiSpeaker
    ensures s.transcript == [Turn(AiSpeaker, OpeningMessage(lang))]
    ensures s.lang == lang && s.input == "" && s.summary == "" && s.error == None && s.questions == [] && !s.loading
    ensures s.timers == [] && Potential(s) == 1
  {
    State(lang, Understanding, [Turn(AiSpeaker, OpeningMessage(lang))], "", 0, false, "", None, [], 0, map[], [])
  }

  // ---------------------------------------------------------------------------
  // Understanding phase

  /** `!userInput.trim() || loading`: the send handler returns without doing anything. */
  predicate SendIgnored(s: State)
  {
    Trim(s.input) == "" || s.loading
  }

  /** The assistant turn appended after a successful understanding step; thanks to the fallbacks it is never empty. */
  function AiReply(step: UnderstandingStep): (r: string)
    ensures r != ""
  {
    if step.isUnderstood then OrElse(step.summary, "Summary generated.") else OrElse(step.nextQuestion, "...")
  }

  /** The synchronous part of a send: append the raw input as a user turn, clear the input, start loading. */
  function Submit(s: State): (r: State)
    requires !SendIgnored(s)
    ensures r.transcript == s.transcript + [Turn(UserSpeaker, s.input)]
    ensures r.input == "" && r.error == None
    ensures r.loading
    ensures forall x :: SendIgnored(r.(input := x))
  {
    s.(transcript := s.transcript + [Turn(UserSpeaker, s.input)], input := "", loading := true, error := None)
  }

  /** What the component does when the understanding call settles. */
  function Resolve(s: State, outcome: Attempt<UnderstandingStep>): State
  {
    match outcome
    case Ok(step) =>
      s.(score := step.understandingScore,
         summary := if step.isUnderstood then OrElse(step.summary, "") else s.summary,
         transcript := s.transcript + [Turn(AiSpeaker, AiReply(step))],
         loading := false)
    case Err(m) =>
      s.(error := Some(if Gemini.IsQuotaError(m) then QuotaBusy else ApiError),
         loading := false)
  }

  /** `handleSendUnderstanding`, given the final outcome of the understanding call. */
  function SendUnderstanding(s: State, outcome: Attempt<UnderstandingStep>): (r: State)
    ensures IsBlank(s.input) || s.loading ==> r == s
    ensures r.timers == s.timers
    ensures !SendIgnored(s) ==>
      && r.input == "" && !r.loading
      && r.phase == s.phase && r.lang == s.lang
      && r.questions == s.questions && r.cursor == s.cursor && r.answers == s.answers
      && |r.transcript| > |s.transcript|
      && r.transcript[..|s.transcript| + 1] == s.transcript + [Turn(UserSpeaker, s.input)]
    ensures !SendIgnored(s) && outcome.Ok? ==>
      && |r.transcript| == |s.transcript| + 2
      && r.transcript[|s.transcript| + 1].role == AiSpeaker
      && r.transcript[|s.transcript| + 1].content != ""
      && (outcome.value.isUnderstood ==> r.transcript[|s.transcript| + 1].content == OrElse(outcome.value.summary, "Summary generated."))
      && (!outcome.value.isUnderstood ==> r.transcript[|s.transcript| + 1].content == OrElse(outcome.value.nextQuestion, "..."))
      && r.score == outcome.value.understandingScore
      && (outcome.value.isUnderstood ==> r.summary == OrElse(outcome.value.summary, ""))
      && (!outcome.value.isUnderstood ==> r.summary == s.summary)
      && r.error == None
    ensures !SendIgnored(s) && outcome.Err? ==>
      && |r.transcript| == |s.transcript| + 1
      && r.score == s.score && r.summary == s.summary
      && (r.error == Some(QuotaBusy) <==> Gemini.IsQuotaError(outcome.message))
      && (r.error == Some(ApiError) <==> !Gemini.IsQuotaError(outcome.message))
  {
    TrimEmptyIffBlank(s.input);
    if SendIgnored(s) then s else Resolve(Submit(s), outcome)
  }

  /** After a failed send the input is empty, so the error banner's retry control sends nothing. */
  lemma RetryAfterFailureSendsNothing(s: State, m: string, outcome: Attempt<UnderstandingStep>)
    requires !SendIgnored(s)
    ensures var r := SendUnderstanding(s, Err(m));
      SendUnderstanding(r, outcome) == r
  {
    assert Trim("") == "";
  }

  /** The trigger for tailoring, shown instead of the chat input once the score reaches 100. */
  predicate TailoringOffered(s: State)
  {
    s.phase == Understanding && s.score >= FullScore
  }

  /** `startTailoring`, given the final outcome of the question-generation call for `s.summary`. */
  function StartTailoring(s: State, outcome: Attempt<seq<DynamicQuestion>>): (r: State)
    ensures r.phase != Tailoring
    ensures r.transcript == s.transcript && r.score == s.score && r.summary == s.summary
    ensures r.answers == s.answers && r.cursor == s.cursor && r.input == s.input && r.lang == s.lang && r.loading == s.loading
    ensures r.timers == s.timers
    ensures outcome.Ok? ==> r.phase == Interview && r.questions == outcome.value && r.error == None
    ensures outcome.Err? ==> r.phase == Understanding && r.questions == s.questions && r.error == Some(TailoringFailed)
  {
    var tailoring := s.(phase := Tailoring, error := None);
    match outcome
    case Ok(qs) => tailoring.(questions := qs, phase := Interview)
    case Err(_) => tailoring.(phase := Understanding, error := Some(TailoringFailed))
  }

  // ---------------------------------------------------------------------------
  // Interview phase

  /** The interview screen can render: `dynamicQuestions[currentStep]` exists. */
  predicate InterviewShown(s: State)
  {
    s.phase == Interview && s.cursor < |s.questions|
  }

  /** `answers[id] || ''` */
  function AnswerFor(answers: map<int, string>, id: int): string
  {
    if id in answers then answers[id] else ""
  }

  /** The "next" control is rendered only when the current question has a non-empty answer. */
  predicate NextOffered(s: State)
  {
    InterviewShown(s) && AnswerFor(s.answers, s.questions[s.cursor].id) != ""
  }

  /**
   Records `text` as the answer to the current question (a quick reply, or the
   text area). Without a current question `handleReplyClick` throws (reading
   `currentQuestion.id`) before changing anything.
   */
  function RecordAnswer(s: State, text: string): (r: State)
    ensures s.cursor < |s.questions| ==>
      var id := s.questions[s.cursor].id;
      && r.answers.Keys == s.answers.Keys + {id}
      && r.answers[id] == text
      && (forall k :: k in s.answers && k != id ==> r.answers[k] == s.answers[k])
    ensures r == s.(answers := r.answers)
    ensures s.cursor >= |s.questions| ==> r == s
  {
    if s.cursor < |s.questions| then s.(answers := s.answers[s.questions[s.cursor].id := text]) else s
  }

  /** The emitted answer list: one entry per question, in question order, answers looked up by question id. */
  function Collect(questions: seq<DynamicQuestion>, answers: map<int, string>): (r: seq<DiscoveryAnswer>)
    ensures |r| == |questions|
  {
    seq(|questions|, i requires 0 <= i < |questions| =>
      DiscoveryAnswer(questions[i].id, questions[i].text, AnswerFor(answers, questions[i].id)))
  }

  /**
   The completion list matches the batch: same length, same ids and text
   snapshots in the same order, every id taken from the batch, and distinct ids
   when the batch's ids are distinct.
   */
  lemma CompletionMatchesBatch(questions: seq<DynamicQuestion>, answers: map<int, string>)
    ensures var r := Collect(questions, answers);
      && |r| == |questions|
      && (forall i :: 0 <= i < |r| ==> r[i].questionId == questions[i].id && r[i].questionText == questions[i].text)
      && (forall i :: 0 <= i < |r| ==> (questions[i].id in answers ==> r[i].answer == answers[questions[i].id]))
      && (forall i :: 0 <= i < |r| ==> (questions[i].id !in answers ==> r[i].answer == ""))
      && (forall a :: a in r ==> exists q :: q in questions && q.id == a.questionId)
      && ((forall i, j :: 0 <= i < j < |questions| ==> questions[i].id != questions[j].id) ==>
            (forall i, j :: 0 <= i < j < |r| ==> r[i].questionId != r[j].questionId))
  {
    var r := Collect(questions, answers);
    forall a | a in r
      ensures exists q :: q in questions && q.id == a.questionId
    {
      var i :| 0 <= i < |r| && r[i] == a;
      assert questions[i] in questions;
    }
  }

  /**
   What a `setTimeout(handleNext, 300)` scheduled by a quick-reply click reads
   when it fires: the closure of the render in which the click happened, so
   the cursor, the question batch and the answer map as they were then.
   */
  datatype Snapshot = Snapshot(cursor: nat, questions: seq<DynamicQuestion>, answers: map<int, string>)

  function SnapshotOf(s: State): Snapshot
  {
    Snapshot(s.cursor, s.questions, s.answers)
  }

  /**
   `handleNext` run from the closure `seen` on the current state `s`. The test
   and the emitted list read the closure; the cursor update is functional
   (`curr => curr + 1`) and the phase update is unconditional, so both apply to
   the current state, whatever phase it is in by then.
   */
  function HandleNext(s: State, seen: Snapshot): Step
  {
    if seen.cursor < |seen.questions| - 1 then Step(s.(cursor := s.cursor + 1), None)
    else Step(s.(phase := Finalizing), Some(Collect(seen.questions, seen.answers)))
  }

  /** `handleNext` from the "next" control, whose closure is the current render. */
  function Next(s: State): (r: Step)
    ensures s.cursor + 1 < |s.questions| ==> r == Step(s.(cursor := s.cursor + 1), None)
    ensures s.cursor + 1 >= |s.questions| ==>
      && r.state == s.(phase := Finalizing)
      && r.completed.Some?
      && |r.completed.value| == |s.questions|
      && forall i :: 0 <= i < |s.questions| ==>
           r.completed.value[i] == DiscoveryAnswer(s.questions[i].id, s.questions[i].text, AnswerFor(s.answers, s.questions[i].id))
  {
    HandleNext(s, SnapshotOf(s))
  }

  /**
   `handleReplyClick`: the reply is recorded as the current question's answer
   and a `handleNext` is scheduled whose closure holds the state of the click's
   render, that is the answers from before the reply. Nothing else changes
   until the timer fires.
   */
  function ReplyClick(s: State, reply: string): (r: State)
    ensures s.cursor >= |s.questions| ==> r == s
    ensures s.cursor < |s.questions| ==>
      && r.answers == s.answers[s.questions[s.cursor].id := reply]
      && r.timers == s.timers + [Snapshot(s.cursor, s.questions, s.answers)]
      && r == s.(answers := r.answers, timers := r.timers)
  {
    if s.cursor >= |s.questions| then s
    else RecordAnswer(s, reply).(timers := s.timers + [SnapshotOf(s)])
  }

  /** The component as written, or with the scheduled advance corrected. */
  datatype Version = AsWritten | Corrected

  /**
   The oldest pending timer fires. As written, it runs `handleNext` from the
   click's closure: it completes exactly when the clicked question was the
   last one, with the answers from before the click, and in any phase. The
   corrected advance acts only while the interview still shows the clicked
   question, and then behaves like the "next" control with the current answers.
   */
  function FireTimer(v: Version, s: State): (r: Step)
    requires s.timers != []
    ensures r.state.timers == s.timers[1..]
    ensures r.state == s.(timers := s.timers[1..], cursor := r.state.cursor, phase := r.state.phase)
    ensures r.completed.Some? ==> r.state.cursor == s.cursor
    ensures v == AsWritten ==>
      var seen := s.timers[0];
      && (r.completed.Some? <==> seen.cursor + 1 >= |seen.questions|)
      && (r.completed.Some? ==> r.completed == Some(Collect(seen.questions, seen.answers)) && r.state.phase == Finalizing)
      && (r.completed.None? ==> r.state.cursor == s.cursor + 1 && r.state.phase == s.phase)
      && r.state.answers == s.answers && r.state.error == s.error && r.state.questions == s.questions
    ensures v == Corrected ==>
      && (r.completed.Some? <==> InterviewShown(s) && s.cursor == s.timers[0].cursor && s.cursor + 1 == |s.questions|)
      && (r.completed.Some? ==> r.completed == Some(Collect(s.questions, s.answers)) && r.state.phase == Finalizing)
      && (r.completed.None? ==> r.state.phase == s.phase)
      && (r.completed.None? ==>
            r.state.cursor == if InterviewShown(s) && s.cursor == s.timers[0].cursor then s.cursor + 1 else s.cursor)
      && r.state.answers == s.answers && r.state.error == s.error && r.state.questions == s.questions
  {
    var seen := s.timers[0];
    var rest := s.(timers := s.timers[1..]);
    match v
    case AsWritten => HandleNext(rest, seen)
    case Corrected =>
      if InterviewShown(rest) && rest.cursor == seen.cursor then Next(rest) else Step(rest, None)
  }

  /**
   On the last question, a quick reply that was not already the typed answer
   is recorded in the state but, when its timer fires, missing from the
   emitted list.
   */
  lemma ReplyOnLastQuestionIsDropped(s: State, reply: string)
    requires |s.questions| > 0 && s.cursor == |s.questions| - 1
    requires s.questions[s.cursor].id !in s.answers
    requires s.timers == []
    requires reply != ""
    ensures var clicked := ReplyClick(s, reply);
      var r := FireTimer(AsWritten, clicked);
      && r.completed.Some?
      && r.state.answers[s.questions[s.cursor].id] == reply
      && r.completed.value[s.cursor].answer == ""
      && r.completed.value[s.cursor].answer != reply
  {
  }

  /** A one-question interview answered by the quick reply "Yes" completes with an empty answer. */
  lemma ReplyDroppedExample()
    ensures var q := DynamicQuestion(1, "Growth", "Do you track profit daily?", ["Yes", "No"]);
      var s := State(En, Interview, [], "", 100, false, "", None, [q], 0, map[], []);
      FireTimer(AsWritten, ReplyClick(s, "Yes")).completed == Some([DiscoveryAnswer(1, "Do you track profit daily?", "")])
  {
    var q := DynamicQuestion(1, "Growth", "Do you track profit daily?", ["Yes", "No"]);
    var s := State(En, Interview, [], "", 100, false, "", None, [q], 0, map[], []);
    assert AnswerFor(s.answers, 1) == "";
    var emitted := Collect(s.questions, s.answers);
    assert emitted[0] == DiscoveryAnswer(1, "Do you track profit daily?", "");
    assert emitted == [DiscoveryAnswer(1, "Do you track profit daily?", "")];
    assert ReplyClick(s, "Yes").timers[0] == SnapshotOf(s);
    assert FireTimer(AsWritten, ReplyClick(s, "Yes")).completed == Some(emitted);
  }

  /** With the corrected advance, a quick reply on the last question always reaches the emitted list. */
  lemma CorrectedReplyReachesList(s: State, reply: string)
    requires InterviewShown(s) && s.cursor == |s.questions| - 1
    requires s.timers == []
    ensures var clicked := ReplyClick(s, reply);
      var r := FireTimer(Corrected, clicked);
      && r.state.phase == Finalizing
      && r.completed == Some(Collect(s.questions, clicked.answers))
      && r.completed.value[s.cursor].answer == reply
  {
    var clicked := ReplyClick(s, reply);
    var r := FireTimer(Corrected, clicked);
    assert r.completed == Some(Collect(s.questions, clicked.answers));
    assert r.completed.value[s.cursor].questionId == s.questions[s.cursor].id;
  }

  /** The back controls (interview screen, and the error screen of the tailoring and finalizing phases). */
  function Back(s: State): (r: State)
    ensures r.phase == Understanding
    ensures r.(phase := s.phase) == s
  {
    s.(phase := Understanding)
  }

  // ---------------------------------------------------------------------------
  // The component as an event machine

  datatype Event =
    | EditInput(text: string)
    | Send(understanding: Attempt<UnderstandingStep>)
    | Tailor(tailored: Attempt<seq<DynamicQuestion>>)
    | TypeAnswer(answer: string)
    | PickReply(reply: string)
    | NextQuestion
    | GoBack
    | TimerFires

  /** Whether the control that raises `e` is rendered in state `s` (for `TimerFires`: whether a timer is pending). */
  predicate Offered(s: State, e: Event)
  {
    match e
    case EditInput(_) => s.phase == Understanding && s.score < FullScore && !s.loading
    case Send(_) => s.phase == Understanding && (s.score < FullScore || s.error.Some?)
    case Tailor(_) => TailoringOffered(s)
    case TypeAnswer(_) => InterviewShown(s)
    case PickReply(reply) => InterviewShown(s) && reply in s.questions[s.cursor].quickReplies
    case NextQuestion => NextOffered(s)
    case GoBack => InterviewShown(s) || ((s.phase == Tailoring || s.phase == Finalizing) && s.error.Some?)
    case TimerFires => s.timers != []
  }

  function Dispatch(v: Version, s: State, e: Event): Step
  {
    if !Offered(s, e) then Step(s, None)
    else
      match e
      case EditInput(text) => Step(s.(input := text), None)
      case Send(outcome) => Step(SendUnderstanding(s, outcome), None)
      case Tailor(outcome) => Step(StartTailoring(s, outcome), None)
      case TypeAnswer(text) => Step(RecordAnswer(s, text), None)
      case PickReply(reply) => Step(ReplyClick(s, reply), None)
      case NextQuestion => Next(s)
      case GoBack => Step(Back(s), None)
      case TimerFires => FireTimer(v, s)
  }

  /**
   Invariant of every reachable state, in either version: no call is
   outstanding between events, the transient tailoring phase is never
   observed, the interview carries no error, a score of 100 hides (and has
   emptied) the chat input, and every phase past understanding, and every
   pending timer, was reached with a full score.
   */
  ghost predicate Inv(s: State)
  {
    && !s.loading
    && s.phase != Tailoring
    && (s.phase == Interview ==> s.error == None)
    && (s.score >= FullScore ==> s.input == "")
    && (s.phase != Understanding || s.timers != [] ==> s.score >= FullScore)
  }

  /**
   The finalizing phase shows no error. As written a late timer can move an
   understanding state that carries an error to finalizing; with the
   corrected advance this cannot happen.
   */
  ghost predicate Clean(s: State)
  {
    s.phase == Finalizing ==> s.error == None
  }

  /** Every event keeps the invariant and the language, and only ever appends to the transcript. */
  lemma DispatchPreservesInv(v: Version, s: State, e: Event)
    requires Inv(s)
    ensures Inv(Dispatch(v, s, e).state)
    ensures Dispatch(v, s, e).state.lang == s.lang
    ensures s.transcript <= Dispatch(v, s, e).state.transcript
    ensures v == Corrected && Clean(s) ==> Clean(Dispatch(v, s, e).state)
  {
    var r := Dispatch(v, s, e).state;
    if Offered(s, e) && e.Send? && !SendIgnored(s) {
      assert r.transcript[..|s.transcript| + 1] == s.transcript + [Turn(UserSpeaker, s.input)];
      assert r.transcript[..|s.transcript|] == s.transcript;
    }
  }

  /**
   Once finalizing without an error and with no timer that can still fire
   into it, no control is left: no event emits, and only the pending timers
   (harmless with the corrected advance) change.
   */
  lemma FinalizingIsFinal(v: Version, s: State, e: Event)
    requires Inv(s) && s.phase == Finalizing && s.error == None
    requires v == AsWritten ==> s.timers == []
    ensures Dispatch(v, s, e).completed == None
    ensures Dispatch(v, s, e).state == s.(timers := Dispatch(v, s, e).state.timers)
    ensures s.timers == [] ==> Dispatch(v, s, e) == Step(s, None)
  {
  }

  /**
   Only the "next" control and a firing timer emit, and an emission always
   leaves the phase at finalizing. The "next" control, and with the corrected
   advance every emission, completes an interview in progress with one entry
   per question.
   */
  lemma CompletionOnlyFromInterview(v: Version, s: State, e: Event)
    requires Dispatch(v, s, e).completed.Some?
    ensures e.NextQuestion? || e.TimerFires?
    ensures Dispatch(v, s, e).state.phase == Finalizing
    ensures e.NextQuestion? || v == Corrected ==>
      s.phase == Interview && |Dispatch(v, s, e).completed.value| == |s.questions|
  {
  }

  /** Without a full score the tailoring trigger does nothing. */
  lemma TailoringNeedsFullScore(v: Version, s: State, outcome: Attempt<seq<DynamicQuestion>>)
    requires s.score < FullScore
    ensures Dispatch(v, s, Tailor(outcome)) == Step(s, None)
  {
  }

  /** The state after a sequence of events, and every answer list emitted along the way. */
  datatype Trace = Trace(final: State, completions: seq<seq<DiscoveryAnswer>>)

  function Run(v: Version, s: State, events: seq<Event>): Trace
    decreases |events|
  {
    if |events| == 0 then Trace(s, [])
    else
      var step := Dispatch(v, s, events[0]);
      var rest := Run(v, step.state, events[1..]);
      Trace(rest.final, (if step.completed.Some? then [step.completed.value] else []) + rest.completions)
  }

  /**
   With the corrected advance, a run from any reachable state keeps the
   invariant, only appends to the transcript, and completes the interview at
   most once (never, if it was already finalizing).
   */
  lemma {:induction false} CorrectedRunCompletesAtMostOnce(s: State, events: seq<Event>)
    requires Inv(s) && Clean(s)
    ensures Inv(Run(Corrected, s, events).final) && Clean(Run(Corrected, s, events).final)
    ensures s.transcript <= Run(Corrected, s, events).final.transcript
    ensures |Run(Corrected, s, events).completions| <= 1
    ensures s.phase == Finalizing ==> Run(Corrected, s, events).completions == []
    decreases |events|
  {
    if |events| > 0 {
      var step := Dispatch(Corrected, s, events[0]);
      DispatchPreservesInv(Corrected, s, events[0]);
      CorrectedRunCompletesAtMostOnce(step.state, events[1..]);
      if s.phase == Finalizing {
        FinalizingIsFinal(Corrected, s, events[0]);
      }
      if step.completed.Some? {
        CompletionOnlyFromInterview(Corrected, s, events[0]);
      }
    }
  }

  /**
   What can still complete the interview as written: one completion while the
   phase is not a clean finalizing one, plus one per pending timer.
   */
  function Potential(s: State): nat
  {
    (if s.phase != Finalizing || s.error.Some? then 1 else 0) + |s.timers|
  }

  function QuickReplyCount(events: seq<Event>): nat
    decreases |events|
  {
    if |events| == 0 then 0
    else (if events[0].PickReply? then 1 else 0) + QuickReplyCount(events[1..])
  }

  /** As written, an event emits only by spending potential, and only a quick reply adds any. */
  lemma AsWrittenStepBound(s: State, e: Event)
    requires Inv(s)
    ensures var step := Dispatch(AsWritten, s, e);
      (if step.completed.Some? then 1 else 0) + Potential(step.state) <= Potential(s) + (if e.PickReply? then 1 else 0)
  {
  }

  /**
   As written, a run completes the interview at most once more than the
   number of quick replies it picks (from the mounted state, whose potential
   is 1), so a run without quick replies completes at most once.
   */
  lemma {:induction false} AsWrittenCompletionsBound(s: State, events: seq<Event>)
    requires Inv(s)
    ensures Inv(Run(AsWritten, s, events).final)
    ensures |Run(AsWritten, s, events).completions| <= Potential(s) + QuickReplyCount(events)
    decreases |events|
  {
    if |events| > 0 {
      DispatchPreservesInv(AsWritten, s, events[0]);
      AsWrittenStepBound(s, events[0]);
      AsWrittenCompletionsBound(Dispatch(AsWritten, s, events[0]).state, events[1..]);
    }
  }

  /**
   A quick reply on the last question followed, before its timer fires, by
   the "next" control completes the interview twice as written: first with
   the reply, then from the timer with the answers from before the click. With
   the corrected advance the same run completes once, with the reply.
   */
  lemma QuickReplyThenNextCompletesTwice()
    ensures var q := DynamicQuestion(1, "Growth", "Do you track profit daily?", ["Yes", "No"]);
      var s := State(En, Interview, [], "", 100, false, "", None, [q], 0, map[], []);
      var events := [PickReply("Yes"), NextQuestion, TimerFires];
      && Run(AsWritten, s, events).completions ==
           [[DiscoveryAnswer(1, "Do you track profit daily?", "Yes")], [DiscoveryAnswer(1, "Do you track profit daily?", "")]]
      && Run(Corrected, s, events).completions == [[DiscoveryAnswer(1, "Do you track profit daily?", "Yes")]]
  {
    var q := DynamicQuestion(1, "Growth", "Do you track profit daily?", ["Yes", "No"]);
    var s := State(En, Interview, [], "", 100, false, "", None, [q], 0, map[], []);
    var events := [PickReply("Yes"), NextQuestion, TimerFires];
    var yes := [DiscoveryAnswer(1, "Do you track profit daily?", "Yes")];
    var empty := [DiscoveryAnswer(1, "Do you track profit daily?", "")];
    assert events[1..] == [NextQuestion, TimerFires];
    assert events[1..][1..] == [TimerFires];
    assert events[1..][1..][1..] == [];
    var s1 := s.(answers := map[1 := "Yes"], timers := [SnapshotOf(s)]);
    assert Dispatch(AsWritten, s, PickReply("Yes")) == Step(s1, None);
    assert Dispatch(Corrected, s, PickReply("Yes")) == Step(s1, None);
    assert AnswerFor(s1.answers, 1) == "Yes";
    assert Collect(s1.questions, s1.answers)[0] == yes[0];
    assert Collect(s1.questions, s1.answers) == yes;
    var s2 := s1.(phase := Finalizing);
    assert Dispatch(AsWritten, s1, NextQuestion) == Step(s2, Some(yes));
    assert Dispatch(Corrected, s1, NextQuestion) == Step(s2, Some(yes));
    assert AnswerFor(s.answers, 1) == "";
    assert Collect(s.questions, s.answers)[0] == empty[0];
    assert Collect(s.questions, s.answers) == empty;
    var s3 := s2.(timers := []);
    assert Dispatch(AsWritten, s2, TimerFires) == Step(s3, Some(empty));
    assert Dispatch(Corrected, s2, TimerFires) == Step(s3, None);
  }

  /**
   A quick reply on the second-to-last question followed, before its timer
   fires, by the "next" control: the timer moves the cursor a second time, past
   the last question. The interview screen cannot render there, and as written
   no event can change anything any more, so the interview never completes.
   */
  lemma QuickReplyThenNextOverrunsInterview()
    ensures var q1 := DynamicQuestion(1, "Growth", "Do you track profit daily?", ["Yes", "No"]);
      var q2 := DynamicQuestion(2, "Cash", "Is cash flow positive?", ["Yes", "No"]);
      var s := State(En, Interview, [], "", 100, false, "", None, [q1, q2], 0, map[], []);
      var r := Run(AsWritten, s, [PickReply("Yes"), NextQuestion, TimerFires]);
      && r.final.phase == Interview && r.final.cursor == 2 && !InterviewShown(r.final)
      && r.completions == []
      && forall e :: Dispatch(AsWritten, r.final, e) == Step(r.final, None)
  {
    var q1 := DynamicQuestion(1, "Growth", "Do you track profit daily?", ["Yes", "No"]);
    var q2 := DynamicQuestion(2, "Cash", "Is cash flow positive?", ["Yes", "No"]);
    var s := State(En, Interview, [], "", 100, false, "", None, [q1, q2], 0, map[], []);
    var events := [PickReply("Yes"), NextQuestion, TimerFires];
    assert events[1..] == [NextQuestion, TimerFires];
    assert events[1..][1..] == [TimerFires];
    assert events[1..][1..][1..] == [];
    var s1 := s.(answers := map[1 := "Yes"], timers := [SnapshotOf(s)]);
    assert Dispatch(AsWritten, s, PickReply("Yes")) == Step(s1, None);
    assert AnswerFor(s1.answers, 1) == "Yes";
    var s2 := s1.(cursor := 1);
    assert Dispatch(AsWritten, s1, NextQuestion) == Step(s2, None);
    var s3 := s2.(cursor := 2, timers := []);
    assert Dispatch(AsWritten, s2, TimerFires) == Step(s3, None);
    assert Run(AsWritten, s3, []) == Trace(s3, []);
  }

  /**
   The cursor is not reset by tailoring: going back from the last of five
   questions and tailoring a batch of three leaves the cursor past the end of
   the new batch, where no interview control is rendered.
   */
  lemma RetailoringKeepsStaleCursor(v: Version, s: State, qs: seq<DynamicQuestion>)
    requires Inv(s) && s.phase == Interview && |s.questions| == 5 && s.cursor == 4
    requires |qs| == 3
    ensures var back := Dispatch(v, s, GoBack).state;
      var r := Dispatch(v, back, Tailor(Ok(qs))).state;
      r.phase == Interview && r.questions == qs && r.cursor == 4 && !InterviewShown(r)
  {
  }

  /**
   A follow-up turn: the service is not yet satisfied, scores 40 and asks a
   question; the phase stays `understanding`, the score shows 40 and the
   question is the new last turn.
   */
  lemma FollowUpQuestionScenario(v: Version, s: State)
    requires Inv(s) && s.phase == Understanding && s.score < FullScore
    requires s.input == "We sell logistics software."
    ensures var step := UnderstandingStep(false, Some("Who approves the purchase?"), None, 40);
      var r := Dispatch(v, s, Send(Ok(step))).state;
      && r.phase == Understanding
      && r.score == 40
      && r.transcript == s.transcript + [Turn(UserSpeaker, s.input), Turn(AiSpeaker, "Who approves the purchase?")]
  {
    TrimEmptyIffBlank(s.input);
    assert !IsJsWhitespace(s.input[0]);
  }
}

=== FILE: gemini.dfy ===
/**
 The AI service layer (services/gemini.ts): the retry-with-backoff wrapper every
 call goes through, the prompt renderings of the chat transcript and of the
 interview answers, and the `status: 'pending'` injection applied to a
 generated roadmap.

 A call's task is modelled by `task: nat -> Attempt<T>`, the outcome of its
 k-th invocation (counting from 0): either the parsed value or the message of
 the error it threw. The SDK request, `JSON.parse` and the sleep are not
 modelled; the waits are returned as a list of milliseconds instead.
 */
module Gemini {
  import opened Types
  import opened Text
  import opened Retry

  /** Default arguments of the wrapper: three retries, the first after 1000 ms. */
  const DefaultRetries: nat := 3
  const DefaultDelay: nat := 1000

  predicate IsQuotaError(message: string)
  {
    Contains(message, "429") || Contains(message, "RESOURCE_EXHAUSTED")
  }

  predicate IsServerError(message: string)
  {
    Contains(message, "500") || Contains(message, "503")
  }

  /** Errors the wrapper retries: quota exhaustion and the two server faults, recognised by substring. */
  predicate IsRetryable(message: string)
  {
    IsQuotaError(message) || IsServerError(message)
  }

  /** Retryability is decided by occurrences of the four markers anywhere in the message, and nothing else. */
  lemma RetryableIffMarker(message: string)
    ensures IsRetryable(message) <==>
      (exists i :: OccursAt(message, "429", i)) || (exists i :: OccursAt(message, "RESOURCE_EXHAUSTED", i)) ||
      (exists i :: OccursAt(message, "500", i)) || (exists i :: OccursAt(message, "503", i))
  {
    ContainsIffOccurs(message, "429");
    ContainsIffOccurs(message, "RESOURCE_EXHAUSTED");
    ContainsIffOccurs(message, "500");
    ContainsIffOccurs(message, "503");
  }

  /** A 429 is retried; a 502 is not, it is not among the markers. */
  lemma StatusCodeExamples()
    ensures IsRetryable("429")
    ensures IsRetryable("503")
    ensures !IsRetryable("502")
  {
    assert StartsWith("429", "429");
    assert StartsWith("503", "503");
    assert "502"[0] != "429"[0];
    NotContainedInDifferentSameLength("502", "429");
    NotContainedInDifferentSameLength("502", "500") by { assert "502"[2] != "500"[2]; }
    NotContainedInDifferentSameLength("502", "503") by { assert "502"[2] != "503"[2]; }
    NotContainedInShorter("502", "RESOURCE_EXHAUSTED");
  }

  function CallAiWithRetry<T>(task: nat -> Attempt<T>, retries: nat, delay: nat): RetryRun<T>
  {
    RetryFrom(task, IsRetryable, 0, retries, delay)
  }

  /** A first attempt that succeeds is returned as is: no waits, one invocation. */
  lemma FirstSuccessReturnedAtOnce<T>(task: nat -> Attempt<T>, retries: nat, delay: nat)
    requires task(0).Ok?
    ensures CallAiWithRetry(task, retries, delay) == RetryRun(task(0), [], 1)
  {
  }

  /** A non-retryable error is rethrown unchanged after one invocation and no waits. */
  lemma NonRetryableRethrown<T>(task: nat -> Attempt<T>, retries: nat, delay: nat)
    requires task(0).Err? && !IsRetryable(task(0).message)
    ensures CallAiWithRetry(task, retries, delay) == RetryRun(task(0), [], 1)
  {
  }

  /** With the default arguments the task runs at most four times and the waits are a prefix of 1000, 2000, 4000 ms. */
  lemma DefaultBudget<T>(task: nat -> Attempt<T>)
    ensures var r := CallAiWithRetry(task, DefaultRetries, DefaultDelay);
      r.calls <= 4 && r.waits <= [1000, 2000, 4000]
  {
    var r := CallAiWithRetry(task, DefaultRetries, DefaultDelay);
    assert Backoff(1000, 3) == [1000, 2000, 4000];
    BackoffPrefix(1000, r.calls - 1, 3);
  }

  /** Four retryable failures in a row exhaust the default budget: the fourth error propagates after waits 1000, 2000, 4000. */
  lemma ExhaustionPropagatesLastError<T>(task: nat -> Attempt<T>)
    requires forall j :: 0 <= j < 4 ==> task(j).Err? && IsRetryable(task(j).message)
    ensures CallAiWithRetry(task, DefaultRetries, DefaultDelay) == RetryRun(task(3), [1000, 2000, 4000], 4)
  {
    var r := CallAiWithRetry(task, DefaultRetries, DefaultDelay);
    assert r.calls == 4;
    assert Backoff(1000, 3) == [1000, 2000, 4000];
  }

  /** Success on attempt k (1..4) after k-1 retryable failures returns that attempt's value after exactly k-1 waits. */
  lemma SuccessAfterRetryableFailures<T>(task: nat -> Attempt<T>, k: nat)
    requires 1 <= k <= 4
    requires forall j :: 0 <= j < k - 1 ==> task(j).Err? && IsRetryable(task(j).message)
    requires task(k - 1).Ok?
    ensures var r := CallAiWithRetry(task, DefaultRetries, DefaultDelay);
      r.result == task(k - 1) && r.calls == k && r.waits == [1000, 2000, 4000][..k - 1]
  {
    var r := CallAiWithRetry(task, DefaultRetries, DefaultDelay);
    assert r.calls == k;
    assert Backoff(1000, 3) == [1000, 2000, 4000];
    BackoffPrefix(1000, k - 1, 3);
    assert |Backoff(1000, k - 1)| == k - 1 by { BackoffDoubles(1000, k - 1); }
  }

  // ---------------------------------------------------------------------------
  // Prompt renderings

  function SpeakerLabel(role: Speaker): string
  {
    if role == UserSpeaker then "CEO" else "AI Strategist"
  }

  /** One transcript turn as it appears in the understanding prompt. */
  function TranscriptLine(t: Turn): string
  {
    SpeakerLabel(t.role) + ": " + t.content
  }

  /** Reads a rendered transcript line back into the turn it came from. */
  function ParseTranscriptLine(line: string): (r: Option<Turn>)
    ensures r.Some? ==> TranscriptLine(r.value) == line
  {
    if StartsWith(line, "CEO: ") then Some(Turn(UserSpeaker, line[5..]))
    else if StartsWith(line, "AI Strategist: ") then Some(Turn(AiSpeaker, line[15..]))
    else None
  }

  /** Rendering a turn loses neither its speaker nor its text. */
  lemma TranscriptLineRoundTrip(t: Turn)
    ensures ParseTranscriptLine(TranscriptLine(t)) == Some(t)
  {
    var line := TranscriptLine(t);
    if t.role == UserSpeaker {
      assert line == "CEO: " + t.content;
      assert line[..5] == "CEO: ";
      assert line[5..] == t.content;
    } else {
      assert line == "AI Strategist: " + t.content;
      assert line[..5] != "CEO: " by { assert line[0] == 'A'; }
      assert line[..15] == "AI Strategist: ";
      assert line[15..] == t.content;
    }
  }

  function TranscriptLines(history: seq<Turn>): (lines: seq<string>)
    ensures |lines| == |history|
  {
    seq(|history|, i requires 0 <= i < |history| => TranscriptLine(history[i]))
  }

  /** `history.map(h => `${label}: ${h.content}`).join('\n')` */
  function FormatTranscript(history: seq<Turn>): string
  {
    Join(TranscriptLines(history), "\n")
  }

  /** The transcript rendering is built turn by turn, in order: one more turn adds one more line at the end. */
  lemma FormatTranscriptAppend(history: seq<Turn>, t: Turn)
    ensures FormatTranscript([t]) == TranscriptLine(t)
    ensures |history| > 0 ==> FormatTranscript(history + [t]) == FormatTranscript(history) + "\n" + TranscriptLine(t)
  {
    if |history| > 0 {
      assert TranscriptLines(history + [t]) == TranscriptLines(history) + [TranscriptLine(t)];
      JoinSnoc(TranscriptLines(history), TranscriptLine(t), "\n");
    }
  }

  /** One interview answer as it appears in the roadmap prompt. */
  function AnswerBlock(a: DiscoveryAnswer): string
  {
    "Q: " + a.questionText + "\nA: " + a.answer
  }

  function AnswerBlocks(answers: seq<DiscoveryAnswer>): (blocks: seq<string>)
    ensures |blocks| == |answers|
  {
    seq(|answers|, i requires 0 <= i < |answers| => AnswerBlock(answers[i]))
  }

  /** `answers.map(a => `Q: ${a.questionText}\nA: ${a.answer}`).join('\n\n')` */
  function FormatAnswers(answers: seq<DiscoveryAnswer>): string
  {
    Join(AnswerBlocks(answers), "\n\n")
  }

  /** Each answer block starts with its question snapshot and ends with its answer; blocks are appended in order. */
  lemma FormatAnswersAppend(answers: seq<DiscoveryAnswer>, a: DiscoveryAnswer)
    ensures var b := AnswerBlock(a);
      StartsWith(b, "Q: " + a.questionText + "\nA: ") && b[|b| - |a.answer|..] == a.answer
    ensures FormatAnswers([a]) == AnswerBlock(a)
    ensures |answers| > 0 ==> FormatAnswers(answers + [a]) == FormatAnswers(answers) + "\n\n" + AnswerBlock(a)
  {
    if |answers| > 0 {
      assert AnswerBlocks(answers + [a]) == AnswerBlocks(answers) + [AnswerBlock(a)];
      JoinSnoc(AnswerBlocks(answers), AnswerBlock(a), "\n\n");
    }
  }

  // ---------------------------------------------------------------------------
  // Roadmap generation

  /** A roadmap step as the service returns it: every `RoadmapStep` field except `status`. */
  datatype GeneratedStep = GeneratedStep(
    id: int,
    stage: int,
    title: string,
    goal: string,
    tasks: seq<string>,
    responsible: string,
    timeline: string,
    okr: string,
    impactsProfit: bool)

  /** `{ ...s, status }` */
  function WithStatus(g: GeneratedStep, status: Status): RoadmapStep
  {
    RoadmapStep(g.id, g.stage, g.title, g.goal, g.tasks, g.responsible, g.timeline, g.okr, status, g.impactsProfit)
  }

  /** Forgets a step's status: the part the service produced. */
  function Generated(s: RoadmapStep): GeneratedStep
  {
    GeneratedStep(s.id, s.stage, s.title, s.goal, s.tasks, s.responsible, s.timeline, s.okr, s.impactsProfit)
  }

  /** `data.steps.map(s => ({ ...s, status: 'pending' }))`: same steps, same order, every field kept, all pending. */
  function WithPendingStatus(steps: seq<GeneratedStep>): (r: seq<RoadmapStep>)
    ensures |r| == |steps|
    ensures forall i :: 0 <= i < |r| ==> r[i].status == Pending && Generated(r[i]) == steps[i]
  {
    seq(|steps|, i requires 0 <= i < |steps| => WithStatus(steps[i], Pending))
  }

  /**
   `generateRoadmap`: the wrapper with default arguments around a task whose
   successful outcome is the parsed step list with `status: 'pending'`
   injected. It retries and waits exactly as the bare task would, and returns
   its steps marked pending, or its final error unchanged.
   */
  function GenerateRoadmap(task: nat -> Attempt<seq<GeneratedStep>>): (r: RetryRun<seq<RoadmapStep>>)
    ensures var bare := CallAiWithRetry(task, DefaultRetries, DefaultDelay);
      && r.waits == bare.waits
      && r.calls == bare.calls
      && (r.result.Err? <==> bare.result.Err?)
      && (bare.result.Err? ==> r.result.message == bare.result.message)
      && (bare.result.Ok? ==> r.result.value == WithPendingStatus(bare.result.value))
  {
    var lifted := (k: nat) => MapAttempt(task(k), WithPendingStatus);
    RetryMapsSuccess(task, lifted, WithPendingStatus, IsRetryable, 0, DefaultRetries, DefaultDelay);
    CallAiWithRetry(lifted, DefaultRetries, DefaultDelay)
  }
}

=== FILE: retry.dfy ===
/**
 The retry-with-backoff wrapper of services/gemini.ts (`callAiWithRetry`), on
 its own: the task is `task: nat -> Attempt<T>`, the outcome of its k-th
 invocation (counting from 0), and the classification of errors is a
 parameter; the service layer instantiates it with `callAiWithRetry`'s classifier.
 The sleep is not modelled: the waits are returned as a list of milliseconds.
 */
module Retry {

  datatype Attempt<T> = Ok(value: T) | Err(message: string)

  /** The first `n` waits of a pure exponential backoff starting at `delay` ms, no jitter. */
  function Backoff(delay: nat, n: nat): seq<nat>
    decreases n
  {
    if n == 0 then [] else [delay] + Backoff(2 * delay, n - 1)
  }

  /** The schedule starts at `delay` and doubles from each wait to the next. */
  lemma {:induction false} BackoffDoubles(delay: nat, n: nat)
    ensures |Backoff(delay, n)| == n
    ensures n > 0 ==> Backoff(delay, n)[0] == delay
    ensures forall k :: 0 <= k < n - 1 ==> Backoff(delay, n)[k + 1] == 2 * Backoff(delay, n)[k]
    decreases n
  {
    if n > 0 {
      BackoffDoubles(2 * delay, n - 1);
      var b := Backoff(delay, n);
      assert b[1..] == Backoff(2 * delay, n - 1);
      forall k | 0 <= k < n - 1
        ensures b[k + 1] == 2 * b[k]
      {
        if k > 0 {
          assert b[k + 1] == Backoff(2 * delay, n - 1)[k];
          assert b[k] == Backoff(2 * delay, n - 1)[k - 1];
        }
      }
    }
  }

  /** A shorter schedule is a prefix of a longer one. */
  lemma {:induction false} BackoffPrefix(delay: nat, m: nat, n: nat)
    requires m <= n
    ensures Backoff(delay, m) <= Backoff(delay, n)
    decreases m
  {
    if m > 0 {
      BackoffPrefix(2 * delay, m - 1, n - 1);
    }
  }

  /** What one wrapped call did: its final outcome, the waits before each retry, and how often the task ran. */
  datatype RetryRun<T> = RetryRun(result: Attempt<T>, waits: seq<nat>, calls: nat)

  /**
   `callAiWithRetry(task, retries, delay)` after `done` invocations of the task,
   with the error classification as a parameter (`CallAiWithRetry` passes `IsRetryable`):
   run it; on success return; on a retryable error with budget left, wait
   `delay` and recurse with one retry fewer and twice the delay; otherwise
   rethrow the error unchanged.
   */
  function RetryFrom<T>(task: nat -> Attempt<T>, retryable: string -> bool, done: nat, retries: nat, delay: nat): (r: RetryRun<T>)
    ensures 1 <= r.calls <= retries + 1
    ensures |r.waits| == r.calls - 1
    ensures r.waits == Backoff(delay, r.calls - 1)
    ensures r.result == task(done + r.calls - 1)
    ensures forall j :: done <= j < done + r.calls - 1 ==> task(j).Err? && retryable(task(j).message)
    ensures r.result.Err? && retryable(r.result.message) ==> r.calls == retries + 1
    decreases retries
  {
    match task(done)
    case Ok(v) => RetryRun(Ok(v), [], 1)
    case Err(m) =>
      if retryable(m) && retries > 0 then
        var rest := RetryFrom(task, retryable, done + 1, retries - 1, delay * 2);
        RetryRun(rest.result, [delay] + rest.waits, rest.calls + 1)
      else
        RetryRun(Err(m), [], 1)
  }

  /** Two tasks whose attempts fail alike (same messages at the same invocations) are invoked equally often. */
  lemma {:induction false} RetryCallsAgree<T, U>(
    task: nat -> Attempt<T>, lifted: nat -> Attempt<U>, f: T -> U, retryable: string -> bool, done: nat, retries: nat, delay: nat)
    requires forall k :: lifted(k) == MapAttempt(task(k), f)
    ensures RetryFrom(lifted, retryable, done, retries, delay).calls == RetryFrom(task, retryable, done, retries, delay).calls
    decreases retries
  {
    var t := task(done);
    assert lifted(done) == MapAttempt(t, f);
    if t.Err? && retryable(t.message) && retries > 0 {
      RetryCallsAgree(task, lifted, f, retryable, done + 1, retries - 1, delay * 2);
    }
  }

  /** Mapping the success value of every attempt commutes with the wrapper: retries look only at error messages. */
  lemma RetryMapsSuccess<T, U>(
    task: nat -> Attempt<T>, lifted: nat -> Attempt<U>, f: T -> U, retryable: string -> bool, done: nat, retries: nat, delay: nat)
    requires forall k :: lifted(k) == MapAttempt(task(k), f)
    ensures var a := RetryFrom(task, retryable, done, retries, delay);
      RetryFrom(lifted, retryable, done, retries, delay) == RetryRun(MapAttempt(a.result, f), a.waits, a.calls)
  {
    RetryCallsAgree(task, lifted, f, retryable, done, retries, delay);
    var a := RetryFrom(task, retryable, done, retries, delay);
    var b := RetryFrom(lifted, retryable, done, retries, delay);
    assert b.result == lifted(done + a.calls - 1);
  }

  function MapAttempt<T, U>(a: Attempt<T>, f: T -> U): Attempt<U>
  {
    match a
    case Ok(v) => Ok(f(v))
    case Err(m) => Err(m)
  }
}

=== FILE: text.dfy ===
/**
 The JavaScript string operations the core relies on, on `string = seq<char>`:
 `includes`, `trim`, `Array.prototype.join`, the `x || fallback` idiom on
 possibly-missing strings, and the decimal rendering of a whole number inside a
 template literal.
 */
module Text {
  import opened Types

  predicate StartsWith(s: string, prefix: string)
  {
    |prefix| <= |s| && s[..|prefix|] == prefix
  }

  /** `s.includes(sub)`; the empty string is included in every string. */
  predicate Contains(s: string, sub: string)
    decreases |s|
  {
    StartsWith(s, sub) || (|s| > 0 && Contains(s[1..], sub))
  }

  /** `sub` occurs in `s` starting at index `i`. */
  ghost predicate OccursAt(s: string, sub: string, i: int)
  {
    0 <= i && i + |sub| <= |s| && s[i..i + |sub|] == sub
  }

  /** An occurrence after the first index is an occurrence in the tail. */
  lemma OccursShift(s: string, sub: string, i: int)
    requires |s| > 0 && i > 0
    ensures OccursAt(s, sub, i) <==> OccursAt(s[1..], sub, i - 1)
  {
    if i + |sub| <= |s| {
      assert s[1..][i - 1..i - 1 + |sub|] == s[i..i + |sub|];
    }
  }

  /** `Contains` is exactly "occurs at some index". */
  lemma {:induction false} ContainsIffOccurs(s: string, sub: string)
    ensures Contains(s, sub) <==> exists i :: OccursAt(s, sub, i)
    decreases |s|
  {
    assert OccursAt(s, sub, 0) <==> StartsWith(s, sub);
    if |s| == 0 {
      assert forall i :: OccursAt(s, sub, i) ==> i == 0;
    } else {
      ContainsIffOccurs(s[1..], sub);
      forall i | i > 0
        ensures OccursAt(s, sub, i) <==> OccursAt(s[1..], sub, i - 1)
      {
        OccursShift(s, sub, i);
      }
      if Contains(s[1..], sub) {
        var j :| OccursAt(s[1..], sub, j);
        assert OccursAt(s, sub, j + 1);
      }
      assert forall i :: OccursAt(s, sub, i) ==> i == 0 || OccursAt(s[1..], sub, i - 1);
    }
  }

  /** A string never includes a longer one. */
  lemma {:induction false} NotContainedInShorter(s: string, sub: string)
    requires |s| < |sub|
    ensures !Contains(s, sub)
    decreases |s|
  {
    if |s| > 0 {
      NotContainedInShorter(s[1..], sub);
    }
  }

  /** A string includes another of the same length only if they are equal. */
  lemma NotContainedInDifferentSameLength(s: string, sub: string)
    requires |s| == |sub| && s != sub
    ensures !Contains(s, sub)
  {
    assert s[..|sub|] == s;
    if |s| > 0 {
      NotContainedInShorter(s[1..], sub);
    }
  }

  /** The characters `String.prototype.trim` removes: ECMAScript WhiteSpace and LineTerminator. */
  predicate IsJsWhitespace(c: char)
  {
    || c == '\t' || c == '\n' || c == '\U{000B}' || c == '\U{000C}' || c == '\r' || c == ' '
    || c == '\U{00A0}' || c == '\U{1680}' || ('\U{2000}' <= c <= '\U{200A}')
    || c == '\U{2028}' || c == '\U{2029}' || c == '\U{202F}' || c == '\U{205F}'
    || c == '\U{3000}' || c == '\U{FEFF}'
  }

  function TrimStart(s: string): string
  {
    if |s| > 0 && IsJsWhitespace(s[0]) then TrimStart(s[1..]) else s
  }

  function TrimEnd(s: string): string
  {
    if |s| > 0 && IsJsWhitespace(s[|s| - 1]) then TrimEnd(s[..|s| - 1]) else s
  }

  /** `s.trim()` */
  function Trim(s: string): string
  {
    TrimEnd(TrimStart(s))
  }

  ghost predicate IsBlank(s: string)
  {
    forall i :: 0 <= i < |s| ==> IsJsWhitespace(s[i])
  }

  lemma {:induction false} TrimStartEmpty(s: string)
    ensures TrimStart(s) == [] <==> IsBlank(s)
    decreases |s|
  {
    if |s| > 0 && IsJsWhitespace(s[0]) {
      TrimStartEmpty(s[1..]);
      assert IsBlank(s[1..]) <==> IsBlank(s) by {
        if IsBlank(s[1..]) {
          forall i | 0 <= i < |s| ensures IsJsWhitespace(s[i]) {
            if i > 0 { assert s[i] == s[1..][i - 1]; }
          }
        }
      }
    } else if |s| > 0 {
      assert !IsJsWhitespace(s[0]);
    }
  }

  /** TrimStart leaves nothing, or a string that starts with a non-whitespace character. */
  lemma {:induction false} TrimStartHead(s: string)
    ensures TrimStart(s) == [] || !IsJsWhitespace(TrimStart(s)[0])
    decreases |s|
  {
    if |s| > 0 && IsJsWhitespace(s[0]) {
      TrimStartHead(s[1..]);
    }
  }

  /** TrimEnd never removes a leading non-whitespace character. */
  lemma {:induction false} TrimEndKeepsHead(t: string)
    requires |t| > 0 && !IsJsWhitespace(t[0])
    ensures TrimEnd(t) != []
    decreases |t|
  {
    if IsJsWhitespace(t[|t| - 1]) {
      TrimEndKeepsHead(t[..|t| - 1]);
    }
  }

  /** `!s.trim()` holds exactly for strings made only of whitespace (the empty string included). */
  lemma TrimEmptyIffBlank(s: string)
    ensures Trim(s) == [] <==> IsBlank(s)
  {
    TrimStartEmpty(s);
    TrimStartHead(s);
    if TrimStart(s) != [] {
      TrimEndKeepsHead(TrimStart(s));
    }
  }

  /** `xs.join(sep)` */
  function Join(parts: seq<string>, sep: string): string
  {
    if |parts| == 0 then ""
    else if |parts| == 1 then parts[0]
    else parts[0] + sep + Join(parts[1..], sep)
  }

  /** Joining one more part appends the separator and that part: the rendering is built in order. */
  lemma {:induction false} JoinSnoc(parts: seq<string>, x: string, sep: string)
    requires |parts| > 0
    ensures Join(parts + [x], sep) == Join(parts, sep) + sep + x
    decreases |parts|
  {
    if |parts| == 1 {
      assert parts + [x] == [parts[0], x];
      assert (parts + [x])[1..] == [x];
    } else {
      assert (parts + [x])[1..] == parts[1..] + [x];
      JoinSnoc(parts[1..], x, sep);
    }
  }

  /** `x || fallback` where `x` is an optional string: both a missing and an empty string fall back. */
  function OrElse(x: Option<string>, fallback: string): (r: string)
    ensures r == fallback || (x.Some? && r == x.value && r != "")
    ensures x.Some? && x.value != "" ==> r == x.value
    ensures fallback != "" ==> r != ""
  {
    if x.Some? && x.value != "" then x.value else fallback
  }

  function DigitChar(d: nat): (c: char)
    requires d < 10
  {
    "0123456789"[d]
  }

  function DigitValue(c: char): int
  {
    (c as int) - ('0' as int)
  }

  /** The decimal digits of `n` as a template literal writes it (no sign, no leading zeros). */
  function NatToString(n: nat): (r: string)
    ensures |r| >= 1
    ensures forall i :: 0 <= i < |r| ==> '0' <= r[i] <= '9'
  {
    if n < 10 then [DigitChar(n)] else NatToString(n / 10) + [DigitChar(n % 10)]
  }

  /** The number a string of decimal digits denotes. */
  function DigitsValue(s: string): int
  {
    if |s| == 0 then 0 else 10 * DigitsValue(s[..|s| - 1]) + DigitValue(s[|s| - 1])
  }

  /** Reading back the rendered digits gives the number: the rendering loses nothing. */
  lemma {:induction false} NatToStringRoundTrip(n: nat)
    ensures DigitsValue(NatToString(n)) == n
  {
    if n < 10 {
      assert NatToString(n) == [DigitChar(n)];
      assert DigitValue(DigitChar(n)) == n;
    } else {
      var r := NatToString(n);
      assert r[..|r| - 1] == NatToString(n / 10);
      assert DigitValue(r[|r| - 1]) == n % 10;
      NatToStringRoundTrip(n / 10);
    }
  }

  /** Different numbers render as different strings. */
  lemma NatToStringInjective(m: nat, n: nat)
    ensures NatToString(m) == NatToString(n) ==> m == n
  {
    NatToStringRoundTrip(m);
    NatToStringRoundTrip(n);
  }
}

=== FILE: types.dfy ===
/**
 The records shared by the discovery interview, the AI service layer and the
 session orchestrator (types.ts). JavaScript `number` fields used as ids,
 stages, scores and weeks are modelled as `int`, on the assumption that the
 service only returns whole numbers for them; optional properties are
 `Option`s; string-literal unions are datatypes with one constructor per literal.
 */
module Types {

  datatype Option<T> = None | Some(value: T)

  /** `Role = 'CEO' | 'HR_DIRECTOR' | 'MANAGER'` */
  datatype Role = Ceo | HrDirector | Manager

  /** `Language = 'vi' | 'en'` */
  datatype Language = Vi | En

  /** `RoadmapStep.status`: `'pending' | 'in_progress' | 'completed'` */
  datatype Status = Pending | InProgress | Completed

  function RoleCode(r: Role): string
  {
    match r
    case Ceo => "CEO"
    case HrDirector => "HR_DIRECTOR"
    case Manager => "MANAGER"
  }

  /** Reads a role literal; exactly the three literals of the union are accepted. */
  function ParseRole(s: string): (r: Option<Role>)
    ensures r.Some? <==> (s == "CEO" || s == "HR_DIRECTOR" || s == "MANAGER")
    ensures r.Some? ==> RoleCode(r.value) == s
  {
    if s == "CEO" then Some(Ceo)
    else if s == "HR_DIRECTOR" then Some(HrDirector)
    else if s == "MANAGER" then Some(Manager)
    else None
  }

  function LanguageCode(l: Language): string
  {
    match l
    case Vi => "vi"
    case En => "en"
  }

  /** Reads a language literal; exactly `'vi'` and `'en'` are accepted. */
  function ParseLanguage(s: string): (r: Option<Language>)
    ensures r.Some? <==> (s == "vi" || s == "en")
    ensures r.Some? ==> LanguageCode(r.value) == s
  {
    if s == "vi" then Some(Vi) else if s == "en" then Some(En) else None
  }

  function StatusCode(st: Status): string
  {
    match st
    case Pending => "pending"
    case InProgress => "in_progress"
    case Completed => "completed"
  }

  /** Reads a status literal; exactly the three literals of the union are accepted. */
  function ParseStatus(s: string): (r: Option<Status>)
    ensures r.Some? <==> (s == "pending" || s == "in_progress" || s == "completed")
    ensures r.Some? ==> StatusCode(r.value) == s
  {
    if s == "pending" then Some(Pending)
    else if s == "in_progress" then Some(InProgress)
    else if s == "completed" then Some(Completed)
    else None
  }

  /** Every literal of the three unions reads back as the value it was written from. */
  lemma LiteralRoundTrips(r: Role, l: Language, st: Status)
    ensures ParseRole(RoleCode(r)) == Some(r)
    ensures ParseLanguage(LanguageCode(l)) == Some(l)
    ensures ParseStatus(StatusCode(st)) == Some(st)
  {
  }

  datatype User = User(
    id: string,
    email: string,
    role: Role,
    lang: Language,
    hasCompletedDiscovery: bool,
    hasSignedCommitment: bool,
    businessField: Option<string>,
    businessSummary: Option<string>)

  /** A tailored interview question with its suggested answers. */
  datatype DynamicQuestion = DynamicQuestion(id: int, group: string, text: string, quickReplies: seq<string>)

  /** One finalized answer; `questionText` is a copy of the question's text, not a reference. */
  datatype DiscoveryAnswer = DiscoveryAnswer(questionId: int, questionText: string, answer: string)

  /** The service's verdict after one understanding-phase turn; the score is documented as 0-100 but not enforced. */
  datatype UnderstandingStep = UnderstandingStep(
    isUnderstood: bool,
    nextQuestion: Option<string>,
    summary: Option<string>,
    understandingScore: int)

  datatype RoadmapStep = RoadmapStep(
    id: int,
    stage: int,
    title: string,
    goal: string,
    tasks: seq<string>,
    responsible: string,
    timeline: string,
    okr: string,
    status: Status,
    impactsProfit: bool)

  /** `steps` holds `RoadmapStep` ids. */
  datatype WeeklyPlan = WeeklyPlan(week: int, focus: string, steps: seq<int>, kpis: seq<string>, progress: int)

  /** Who spoke a turn of the discovery chat: `role: 'user' | 'ai'`. */
  datatype Speaker = UserSpeaker | AiSpeaker

  datatype Turn = Turn(role: Speaker, content: string)
}

=== FILE: weekly_plans.dfy ===
/**
 The weekly-plan derivation of App.tsx: twelve `WeeklyPlan`s computed from a
 generated roadmap alone. Week `i` (0-based) takes the ids of the roadmap
 steps at positions `[2i, 2i + 2)` (`slice` clamps at the end of the roadmap),
 a focus label numbered `Math.floor(i / 2.5) + 1`, two KPI labels numbered
 `i + 1`, and progress 0.
 */
module WeeklyPlans {
  import opened Types
  import opened Text

  const WeekCount: nat := 12
  const StepsPerWeek: nat := 2

  function Min(a: int, b: int): int
  {
    if a <= b then a else b
  }

  /** `Array.prototype.slice(start, end)` for non-negative bounds: both are clamped to the length, never an error. */
  function Slice<T>(s: seq<T>, start: nat, end: nat): (r: seq<T>)
    ensures |r| == if Min(start, |s|) <= Min(end, |s|) then Min(end, |s|) - Min(start, |s|) else 0
    ensures Min(start, |s|) <= Min(end, |s|) ==> r == s[Min(start, |s|)..Min(end, |s|)]
    ensures |r| <= if start <= end then end - start else 0
    ensures forall k :: 0 <= k < |r| ==> start + k < |s| && r[k] == s[start + k]
    ensures start <= end <= |s| ==> r == s[start..end]
    ensures end <= start || |s| <= start ==> r == []
  {
    var a := Min(start, |s|);
    var b := Min(end, |s|);
    if a < b then s[a..b] else []
  }

  function Ids(steps: seq<RoadmapStep>): (ids: seq<int>)
    ensures |ids| == |steps|
  {
    seq(|steps|, i requires 0 <= i < |steps| => steps[i].id)
  }

  /**
   `Math.floor(i / 2.5) + 1`. For a whole `i` the quotient `i / 2.5` is
   `2i / 5`, which is either a whole number or at least 1/5 away from one, so
   the floating-point division cannot round across a whole number and the
   floor equals the integer quotient `(2 * i) / 5`.
   */
  function FocusNumber(i: nat): nat
  {
    (2 * i) / 5 + 1
  }

  /** Over the twelve weeks the focus number runs from 1 to 5 and never decreases. */
  lemma FocusNumberRangeAndOrder(i: nat, j: nat)
    requires i <= j < WeekCount
    ensures 1 <= FocusNumber(i) <= FocusNumber(j) <= 5
  {
  }

  /** The twelve focus numbers in week order. */
  lemma FocusNumbers()
    ensures seq(WeekCount, i requires 0 <= i < WeekCount => FocusNumber(i)) == [1, 1, 1, 2, 2, 3, 3, 3, 4, 4, 5, 5]
  {
  }

  function Kpis(i: nat): seq<string>
  {
    ["KPI " + NatToString(i + 1) + ".1", "Profit Check " + NatToString(i + 1)]
  }

  /** Week `i` lists the roadmap positions `[WeekStart(i, n), WeekEnd(i, n))` of a roadmap of `n` steps. */
  function WeekStart(i: nat, n: nat): nat
  {
    Min(StepsPerWeek * i, n)
  }

  function WeekEnd(i: nat, n: nat): nat
  {
    Min(StepsPerWeek * i + StepsPerWeek, n)
  }

  function PlanFor(roadmap: seq<RoadmapStep>, i: nat): WeeklyPlan
  {
    WeeklyPlan(
      i + 1,
      "Phase Focus " + NatToString(FocusNumber(i)),
      Ids(Slice(roadmap, i * StepsPerWeek, (i + 1) * StepsPerWeek)),
      Kpis(i),
      0)
  }

  /** `Array.from({ length: 12 }, (_, i) => ({ week, focus, steps, kpis, progress }))` */
  function DerivePlans(roadmap: seq<RoadmapStep>): (plans: seq<WeeklyPlan>)
    ensures |plans| == WeekCount
    ensures forall i :: 0 <= i < WeekCount ==>
      && plans[i].week == i + 1
      && plans[i].progress == 0
      && plans[i].focus == "Phase Focus " + NatToString(FocusNumber(i))
      && plans[i].kpis == ["KPI " + NatToString(i + 1) + ".1", "Profit Check " + NatToString(i + 1)]
      && plans[i].steps == Ids(roadmap)[Min(2 * i, |roadmap|)..Min(2 * i + 2, |roadmap|)]
      && |plans[i].steps| <= 2
      && (2 * i >= |roadmap| <==> plans[i].steps == [])
  {
    var plans := seq(WeekCount, i requires 0 <= i < WeekCount => PlanFor(roadmap, i));
    assert forall i :: 0 <= i < WeekCount ==>
      Ids(Slice(roadmap, i * StepsPerWeek, (i + 1) * StepsPerWeek)) == Ids(roadmap)[Min(2 * i, |roadmap|)..Min(2 * i + 2, |roadmap|)];
    plans
  }

  /** Week `i` lists exactly the ids at its positions, so it never names a step outside the roadmap. */
  lemma StepsAreRoadmapIds(roadmap: seq<RoadmapStep>, i: nat)
    requires i < WeekCount
    ensures var steps := DerivePlans(roadmap)[i].steps;
      && |steps| == WeekEnd(i, |roadmap|) - WeekStart(i, |roadmap|)
      && forall k :: 0 <= k < |steps| ==> 2 * i + k < |roadmap| && steps[k] == roadmap[2 * i + k].id
  {
  }

  /** Positions are handed out in week order and no two weeks share one. */
  lemma WeeksDisjoint(i: nat, j: nat, n: nat)
    requires i < j
    ensures WeekStart(i, n) <= WeekEnd(i, n) <= WeekStart(j, n) <= WeekEnd(j, n)
  {
  }

  /** The steps of weeks `0..k` in order. */
  function Flatten(plans: seq<WeeklyPlan>): seq<int>
  {
    if |plans| == 0 then [] else Flatten(plans[..|plans| - 1]) + plans[|plans| - 1].steps
  }

  /** Any plans whose week `i` lists `ids[2i..2i + 2]` (clamped) flatten, over their first `k` weeks, to `ids[..2k]` (clamped). */
  lemma {:induction false} FlattenWeeks(plans: seq<WeeklyPlan>, ids: seq<int>, k: nat)
    requires k <= |plans|
    requires forall i :: 0 <= i < |plans| ==> plans[i].steps == ids[Min(2 * i, |ids|)..Min(2 * i + 2, |ids|)]
    ensures Flatten(plans[..k]) == ids[..Min(2 * k, |ids|)]
  {
    var n := |ids|;
    if k > 0 {
      FlattenWeeks(plans, ids, k - 1);
      assert plans[..k][..k - 1] == plans[..k - 1];
      assert Flatten(plans[..k]) == Flatten(plans[..k - 1]) + plans[k - 1].steps;
      assert ids[..Min(2 * k, n)] == ids[..Min(2 * (k - 1), n)] + ids[Min(2 * (k - 1), n)..Min(2 * k, n)];
    }
  }

  /** The first `k` weeks together list the first `min(2k, n)` roadmap ids, in order. */
  lemma FlattenPrefix(roadmap: seq<RoadmapStep>, k: nat)
    requires k <= WeekCount
    ensures Flatten(DerivePlans(roadmap)[..k]) == Ids(roadmap)[..Min(2 * k, |roadmap|)]
  {
    FlattenWeeks(DerivePlans(roadmap), Ids(roadmap), k);
  }

  /**
   Concatenating all twelve weeks' steps gives the first `min(24, n)` roadmap
   ids in order; for a roadmap of at least 24 steps, exactly the first 24.
   */
  lemma AllWeeksCoverPrefix(roadmap: seq<RoadmapStep>)
    ensures Flatten(DerivePlans(roadmap)) == Ids(roadmap)[..Min(24, |roadmap|)]
    ensures |roadmap| >= 24 ==> Flatten(DerivePlans(roadmap)) == Ids(roadmap[..24])
  {
    FlattenPrefix(roadmap, WeekCount);
    assert DerivePlans(roadmap)[..WeekCount] == DerivePlans(roadmap);
    if |roadmap| >= 24 {
      assert Ids(roadmap[..24]) == Ids(roadmap)[..24];
    }
  }

  /** A roadmap with ids 1..30 in order: week 1 lists [1, 2] and week 12 lists [23, 24]. */
  lemma ThirtyStepRoadmap(roadmap: seq<RoadmapStep>)
    requires |roadmap| == 30
    requires forall k :: 0 <= k < 30 ==> roadmap[k].id == k + 1
    ensures DerivePlans(roadmap)[0].steps == [1, 2]
    ensures DerivePlans(roadmap)[11].steps == [23, 24]
  {
    var ids := Ids(roadmap);
    assert ids[0..2] == [ids[0], ids[1]];
    assert ids[22..24] == [ids[22], ids[23]];
  }

  /** KPI labels name their week: two different weeks never share a label. */
  lemma KpisDistinct(i: nat, j: nat)
    requires i != j
    ensures Kpis(i)[0] != Kpis(j)[0] && Kpis(i)[1] != Kpis(j)[1]
  {
    var a := NatToString(i + 1);
    var b := NatToString(j + 1);
    NatToStringInjective(i + 1, j + 1);
    assert Kpis(i)[1][13..] == a;
    assert Kpis(j)[1][13..] == b;
    if |a| == |b| {
      assert Kpis(i)[0][4..4 + |a|] == a;
      assert Kpis(j)[0][4..4 + |b|] == b;
    } else {
      assert |Kpis(i)[0]| != |Kpis(j)[0]|;
    }
  }

  /** Focus and KPI labels depend on the week index only, never on the roadmap. */
  lemma LabelsDependOnWeekOnly(r1: seq<RoadmapStep>, r2: seq<RoadmapStep>, i: nat)
    requires i < WeekCount
    ensures DerivePlans(r1)[i].focus == DerivePlans(r2)[i].focus
    ensures DerivePlans(r1)[i].kpis == DerivePlans(r2)[i].kpis == Kpis(i)
  {
  }
}
